=== FILE: README.md ===
# Teacher dashboard: view-model logic in Dafny

This project models the view-model logic behind the teacher dashboard's pages, plus the
employee-ID generator of the staff schema. Network responses, the clock and the
signed-in identity are treated as inputs. Every handler becomes a pure function from
the page state and those inputs to the new state and the request it sends, if any.

- **Exam marks grid** (`exams.dfy`), covering the following:
  - the students of the selected exam's class, filtered by search and section;
  - pages of ten, with the clamped Previous/Next navigation;
  - the one subject the teacher may mark (`autoSubject`);
  - the sorted section list;
  - mark entry, clamped to [0, 100];
  - the save request, built from the visible page only, and the merge into the saved marks on success.
- **Attendance** (`attendance.dfy`), covering the following:
  - the status map built from the per-student fetches, where a rejected fetch reads as "unmarked";
  - first marking, which needs no reason;
  - changing a status, which needs a status and a non-blank reason and appends to the change history;
  - the three-way filter, the marked/unmarked split and the status counts;
  - the class option list and the filter reset.
- **Assignments** (`assignments.dfy`), covering the following:
  - the class, section and created-date filters, with the browser's zone as an input (see Findings for the date bounds);
  - the class→section cascade;
  - the sections flattened out of the allocation response;
  - the create-form validation and its fixed initial payload;
  - the filter reset.
- **Student roster** (`students.dfy`), covering the following:
  - the search box plus four equality selects;
  - the sorted option lists;
  - the active-filter flag and the filter reset.
- **Timetable** (`timetable.dfy`), covering the following:
  - day-code normalisation (Mon → Monday);
  - the teacher filter and the missing-identity guard;
  - the day×period grid, where the last entry wins;
  - the sorted period rows and the per-day mobile lists.
- **Staff schema** (`staff.dfy`), covering the following:
  - the `pre("save")` hook that issues `EMP-YYYY-NNNNN`;
  - the enum-restricted fields;
  - the leave-quota defaults.

Shared modules:
- `wrappers.dfy` (`Option`, `Result`);
- `seqs.dfy`:
  - order-preserving `Filter` and the subsequence relation;
  - `find`/`findIndex`/`map`;
  - last-write-wins map updates;
  - partition counting;
- `sorting.dfy` (sorting with duplicates removed, under any strict total order);
- `text.dfy`:
  - ASCII case folding;
  - JavaScript whitespace and `trim`;
  - `includes`;
  - the default string order of `Array.prototype.sort`;
  - `split`;
- `numerals.dfy` (decimal rendering, `padStart`, `parseInt`);
- `roster.dfy` (the student record and the class option list that two pages share).

Three behaviours of the code are worth stating up front:
- The mark input is clamped to 100, not to the subject's `maxMarks`. See Findings.
- Outside UTC, the assignment date filter does not cover whole local days: its from bound is midnight UTC, while its to bound is set in the local zone. See Findings.
- `markAttendance` and `handleChangeAttendance` update the page state only after the POST succeeds, never optimistically before it.

## Model

| member | source | states |
|---|---|---|
| Exams.FilteredStudents | src/app/exams/page.jsx:164-183 | No exam selected gives an empty list. Otherwise the result is an order-preserving subsequence of the roster. It holds exactly the students of the exam's class that match the name/email query (case-insensitive) and the section select unless it is "all", each as often as in the roster. |
| Exams.PageOf | src/app/exams/page.jsx:185-188 | A page holds at most ten students. For page ≥ 1 its length is min(10, what remains after the earlier pages), and its i-th element is element (page−1)·10+i of the list. |
| Exams.TotalPages | src/app/exams/page.jsx:190 | `ceil(n/10)`: the pages cover n, the last page is not empty, and a non-empty list has at least one page. |
| Exams.PagesCoverList | src/app/exams/page.jsx:185-190 | Concatenating pages 1..totalPages gives back the filtered list exactly. |
| Exams.PagesPrefix | src/app/exams/page.jsx:185-190 | The first k pages concatenate to the list's first min(10k, n) elements. |
| Exams.PrevPage | src/app/exams/page.jsx:596 | Previous never goes below 1, and steps back by one from any page above 1. |
| Exams.NextPage | src/app/exams/page.jsx:608 | Next never exceeds totalPages, and steps forward by one from any page below it. |
| Exams.NavigationStaysInRange | src/app/exams/page.jsx:596-609 | From a page in [1, totalPages], both buttons land inside [1, totalPages]. |
| Exams.AutoSubject | src/app/exams/page.jsx:192-206 | A subject is resolved exactly when an exam is selected, the teacher has an allocation for its class, and the first such allocation's subject is scheduled in the exam. The result is that subject. |
| Exams.UniqueSections | src/app/exams/page.jsx:208-215 | The list is empty without an exam, and strictly sorted in string order, so it has no duplicates. It holds exactly the non-empty section names of students in the exam's class. |
| Exams.MarkKeyInjective | src/app/exams/page.jsx:221 | Within one exam and subject, distinct students have distinct mark keys. |
| Exams.ClampMark | src/app/exams/page.jsx:220 | As written: "" stays blank, non-numbers become 0, and numbers are clamped to [0, 100]. Every score lies in [0, 100]. |
| Exams.HandleMarkChange | src/app/exams/page.jsx:218-223 | No usable subject (none resolved, or the empty name, which `!autoSubject` rejects) means the map is unchanged. Otherwise only the student's key is set, to the clamped input, and every other key keeps its value. |
| Exams.MaxMarksFor | src/app/exams/page.jsx:232-234 | The ceiling is the first matching schedule's `maxMarks` unless that is 0 or missing, else the exam's total. An unscheduled subject gets the exam's total. |
| Exams.ClampAdmitsInvalidMark | src/app/exams/page.jsx:542 | As written, 80 for a subject out of 50 is stored as 80 and flagged invalid. |
| Exams.ClampRejectsValidMark | src/app/exams/page.jsx:220 | As written, 120 for a subject out of 150 is cut to 100 although 120 is valid. |
| Exams.ClampMarkTo | src/app/exams/page.jsx:538-542 | Corrected clamp to [0, maxMarks]: with a non-negative ceiling every stored mark passes `isValid`. In-range numbers are kept, and numbers above the ceiling become the ceiling. |
| Exams.HandleMarkChangeCapped | src/app/exams/page.jsx:218-223 | Corrected mark entry: the frame is the same as the original's (no usable subject changes nothing, and only the student's key is written), and the stored mark is valid for the subject's ceiling. |
| Exams.SubmittedMark | src/app/exams/page.jsx:238 | The value is the pending score if there is one; a pending blank gives 0; with no pending edit it is the saved mark, else 0. |
| Exams.SavePayload | src/app/exams/page.jsx:236-247 | One entry per student of the visible page, in page order, carrying the exam id, the subject, that student's id and name, the submitted mark and the subject's ceiling. |
| Exams.SaveWrites | src/app/exams/page.jsx:254-257 | One write (key, mark) per payload entry, in order. |
| Exams.MergeSaved | src/app/exams/page.jsx:253-258 | The saved keys become the old keys plus the payload's keys. Each payload key holds the value of the last entry that wrote it, and every other key keeps its saved value. |
| Exams.SaveMarks | src/app/exams/page.jsx:225-267 | No usable subject (none, or the empty name): nothing is sent and nothing changes. Otherwise the request is the save payload of the visible page, whether or not the backend accepts it. A rejected save changes nothing. An accepted save stores each page student's submitted mark, leaves other saved marks alone, clears pending edits and returns to page 1. |
| Exams.LastWriterOf | src/app/exams/page.jsx:254-257 | Every payload key has a last entry writing it. |
| Exams.OffPageEditsAreDropped | src/app/exams/page.jsx:236-260 | With a usable subject, a pending edit for a student on another page is lost by a successful save, and that student's saved mark is unchanged. |
| Attendance.Settle | src/app/attendance/page.jsx:133 | A rejected fetch reads as an unsuccessful response with no records; a delivered one is kept. |
| Attendance.EntryFor | src/app/attendance/page.jsx:141-150 | The entry is marked exactly when the response succeeded with a record. It then carries the first record's status, lower-cased; otherwise it is the unmarked entry. |
| Attendance.LoadWrites | src/app/attendance/page.jsx:139-151 | One write per fetched student, in roster order, holding its own response's entry. |
| Attendance.BuildAttendanceMap | src/app/attendance/page.jsx:137-151 | The map's keys are exactly the fetched students' ids. Each student (the last one for a repeated id) maps to the entry its own response yields. |
| Attendance.FailedFetchIsUnmarked | src/app/attendance/page.jsx:133-151 | A student whose fetch was rejected is loaded as unmarked. |
| Attendance.LoadedMarkedIff | src/app/attendance/page.jsx:139-151 | A loaded student is marked iff its fetch was delivered, successful and non-empty. |
| Attendance.Lookup | src/app/attendance/page.jsx:276 | A student without an entry reads as not marked, with status "unmarked". |
| Attendance.PostClassId | src/app/attendance/page.jsx:172 | The POST carries the grade's class id when present, else the class id. |
| Attendance.MarkedEntry | src/app/attendance/page.jsx:189 | A new entry is marked with the given status; its time is "now" only for "present", else "-". |
| Attendance.MarkAttendance | src/app/attendance/page.jsx:162-194 | A POST is sent iff the id is on the roster. It carries the upper-first status, empty remarks, the date, the session's staff and institution ids, and the class id and section of the first roster entry with that id. If accepted, only that student's entry changes; otherwise nothing changes. |
| Attendance.ChangeAttendance | src/app/attendance/page.jsx:203-264 | No status or a blank reason: nothing is sent or changed. Otherwise the POST carries the reason, the upper-first status, the student's class id and section, the date, and the session's staff and institution ids. If accepted, only the student's entry changes, and exactly one history record is appended naming the previous and the new status. |
| Attendance.FilteredStudents | src/app/attendance/page.jsx:273-294 | An order-preserving subsequence of the roster: exactly the students passing the search, status and class tests, each as often as in the roster. |
| Attendance.MarkedStudents | src/app/attendance/page.jsx:297 | An order-preserving subsequence of the filtered list: exactly the students whose entry is marked, each as often as in that list. |
| Attendance.UnmarkedStudents | src/app/attendance/page.jsx:298 | An order-preserving subsequence of the filtered list: exactly the students whose entry is not marked, each as often as in that list. |
| Attendance.MarkedUnmarkedPartition | src/app/attendance/page.jsx:297-298 | The two lists split the filtered list: their lengths sum to its length, every student is in one, and none is in both. |
| Attendance.StatusCountsBounded | src/app/attendance/page.jsx:299-301 | present + late + absent ≤ the number of marked students. |
| Attendance.FilterOfMarked | src/app/attendance/page.jsx:299-301 | Counting a status among the marked students equals counting it among all filtered students. |
| Attendance.MarkedStudentLeavesUnmarked | src/app/attendance/page.jsx:187-190 | After a successful first marking, the student is no longer in the unmarked list and, if shown, is in the marked list. |
| Roster.ClassNames | src/app/attendance/page.jsx:267-270 | The class options (also `uniqueClasses` on the roster page): strictly sorted, so duplicate-free, and exactly the non-empty class names of the roster. |
| Attendance.ClearFilters | src/app/attendance/page.jsx:303-307 | Search becomes "" and both selects become "all". |
| Attendance.ClearFiltersShowsAll | src/app/attendance/page.jsx:273-307 | With cleared filters, the filtered list is the whole roster in order. |
| Assignments.EndOfDay | src/app/assignments/page.jsx:142 | 23:59:59.999 is the millisecond before the next day starts. |
| Assignments.ToBoundAsWritten | src/app/assignments/page.jsx:139-142 | `new Date(dateTo)` is midnight UTC, and `setHours` then works in the local zone. At an offset in [0, 1 day) the bound is local 23:59:59.999 of the to day. At an offset in [−1 day, 0) it is local 23:59:59.999 of the day before. |
| Assignments.DayOfShifted | src/app/assignments/page.jsx:142 | A timestamp less than a day after a day's start falls on that day. |
| Assignments.DateRangeIsDayRange | src/app/assignments/page.jsx:135-145 | The corrected date test, with both bounds in the local zone, passes exactly when the local creation day lies between the from and to days, both inclusive. An absent bound does not constrain. |
| Assignments.AsWrittenAgreesAtUtc | src/app/assignments/page.jsx:138-142 | In UTC the source's date test is the corrected one. |
| Assignments.AsWrittenFromMissesLocalMidnight | src/app/assignments/page.jsx:138-140 | East of UTC, local midnight of the from day lies on that day and passes the corrected test, but fails the source's UTC from bound. |
| Assignments.AsWrittenToMissesLocalDay | src/app/assignments/page.jsx:139-142 | West of UTC, no instant of the local to day passes the source's to bound, though each passes the corrected test. |
| Assignments.DayBounds | src/app/assignments/page.jsx:140 | A timestamp within day d is at or after the start of day k iff d ≥ k. |
| Assignments.FilteredAssignments | src/app/assignments/page.jsx:124-148 | An order-preserving subsequence holding exactly the assignments that match the class and section filters when set, and the local date range, each as often as in the input. |
| Assignments.SelectClass | src/app/assignments/page.jsx:284-287 | Choosing a class sets it, resets the section to "" and keeps the dates. |
| Assignments.SelectClassDropsSection | src/app/assignments/page.jsx:284-287 | After choosing a class, the list depends on the class and dates only. |
| Assignments.ClearFilters | src/app/assignments/page.jsx:211-216 | All four filters are emptied. |
| Assignments.ClearFiltersShowsAll | src/app/assignments/page.jsx:124-148 | With cleared filters, the list is every assignment in order. |
| Assignments.AvailableClasses | src/app/assignments/page.jsx:91-94 | One option per allocated class, in order, with its id and name. |
| Assignments.TagSections | src/app/assignments/page.jsx:99-103 | The class's sections, each tagged with the class's id, one per section. |
| Assignments.FlattenSections | src/app/assignments/page.jsx:98-104 | The `flatMap`: the tagged sections of each class concatenated class by class. So the length is the sum of the section counts, and each element is a section of some class tagged with that class's id. |
| Assignments.FilteredSections | src/app/assignments/page.jsx:219-225 | Empty with no class chosen or an unknown class name; otherwise exactly the sections of the first class with that name, as a subsequence, each as often as in the flattened list. |
| Assignments.SubjectName | src/app/assignments/page.jsx:179 | The teacher's subject name, or "Unknown" when absent or empty. |
| Assignments.CreateAssignment | src/app/assignments/page.jsx:151-185 | Rejected before any request iff a required field is empty. With a complete form, the result is an unknown class iff no class has the chosen name. A listed class without a matching section is rejected as an unknown section, both directions. Otherwise the payload has total 0, submitted 0, status "not-completed" and the form's fields. It names the first listed class with the chosen name and that class's first section with the chosen section name, as `find` returns them. |
| Assignments.CreateSucceedsForListedChoice | src/app/assignments/page.jsx:162-185 | A complete form whose class and section are in the loaded lists (class names unique) always yields a request. |
| Students.SelectClassYear | src/app/students/page.jsx:122-123 | The class and year steps: an order-preserving subsequence holding exactly the students that pass each of the two selects not set to "all", each as often as in the input. |
| Students.SelectStatusGender | src/app/students/page.jsx:124-125 | The status and gender steps, with the same subsequence, membership and multiplicity guarantees. |
| Students.SelectStudents | src/app/students/page.jsx:122-125 | The four select steps together: an order-preserving subsequence holding exactly the students passing every select that is not "all", each as often as in the input. |
| Students.FilteredStudents | src/app/students/page.jsx:109-128 | An order-preserving subsequence holding exactly the students matching a non-empty query on name, email or class (case-insensitive) and every select that is not "all", each as often as in the roster. |
| Students.UniqueYears | src/app/students/page.jsx:103-106 | Strictly sorted, and exactly the non-empty academic years. |
| Students.ClearFilters | src/app/students/page.jsx:130-139 | After clearing, no filter is active. |
| Students.InactiveFiltersShowAll | src/app/students/page.jsx:109-128 | With no active filter, the list is the whole roster in order. |
| Students.ActiveFilterCanHide | src/app/students/page.jsx:138-139 | Every active filter hides the student of some roster. This is the converse of the lemma above. |
| Timetable.NormalizeDay | src/app/timetable/page.jsx:17-25 | Each short code maps to its full day name; any other value is kept. |
| Timetable.NormalizeKeepsOtherLengths | src/app/timetable/page.jsx:60 | A value that is not three letters long is never rewritten. |
| Timetable.NormalizeDayIdempotent | src/app/timetable/page.jsx:58-61 | Normalising twice equals normalising once. |
| Timetable.NormalizeDayIsDay | src/app/timetable/page.jsx:58-61 | A normalised day is a full day name iff it was a code or a full name. |
| Timetable.TeacherEntries | src/app/timetable/page.jsx:58-66 | Exactly the normalised entries of this teacher, in backend order, each as often as among the normalised entries. |
| Timetable.LoadTimetable | src/app/timetable/page.jsx:42-78 | A missing identity gives the login message. A rejected request gives the retry message. An unsuccessful body gives the backend's error when it is non-empty, else "Failed to load timetable". Success gives the teacher's entries. |
| Timetable.MissingIdentityIgnoresResponse | src/app/timetable/page.jsx:43-47 | Without an identity the outcome does not depend on any response, so no fetch is needed. |
| Timetable.LastEntryAt | src/app/timetable/page.jsx:88-93 | The latest placed entry for a day and period; none iff no placed entry has them. |
| Timetable.EmptyGrid | src/app/timetable/page.jsx:86 | Seven day rows, all empty. |
| Timetable.GroupByDay | src/app/timetable/page.jsx:84-96 | Seven day rows. A period is in a day's row iff a placed entry has that day and period, and the cell holds the last such entry. |
| Timetable.LastEntryIsLast | src/app/timetable/page.jsx:88-93 | No entry after a cell's entry is placed in the same cell. |
| Timetable.SortedInts | src/app/timetable/page.jsx:99 | The distinct values, strictly ascending. |
| Timetable.DefinedPeriods | src/app/timetable/page.jsx:99 | Exactly the periods some entry has. |
| Timetable.PeriodRows | src/app/timetable/page.jsx:99 | The ascending periods followed by the "no period" row when needed; defined rows come first and ascend. |
| Timetable.AllPeriods | src/app/timetable/page.jsx:99 | Exactly the periods occurring in the timetable, each once, ascending, with "no period" last. |
| Timetable.DayEntries | src/app/timetable/page.jsx:88-93 | Reference list of the entries `groupByDay` files under one day: an order-preserving subsequence holding exactly the placed entries of that day, each as often as in the timetable. |
| Timetable.DayPeriodsAreGridKeys | src/app/timetable/page.jsx:84-96 | The periods of a day's placed entries are exactly the keys of its grid row. |
| Timetable.RowList | src/app/timetable/page.jsx:234-236 | A row's cells listed in strictly ascending period order, each cell once, with its grid entry. |
| Timetable.DayList | src/app/timetable/page.jsx:234-236 | The mobile list of a day: exactly that day's grid cells, strictly ascending by period. |
| Staff.PreSave | src/models/staff.models.js:90-114 | An existing document or a set id is kept. A generated id splits on "-" into "EMP", the year and the next serial padded to at least five characters (exactly five below 100000). Its serial reads back as 1 with no previous id, and as the previous serial plus one when that parses. |
| Staff.ParseSerialNonNegative | src/models/staff.models.js:107-108 | A serial read from the third dash-separated piece is never negative, since that piece holds no minus sign. |
| Staff.NextSerialPositive | src/models/staff.models.js:103-110 | The next serial is NaN or at least 1. |
| Staff.GeneratedIdShape | src/models/staff.models.js:103-113 | The id built from the next serial has the three pieces, the padded width and the read-back serial that `PreSave` promises. |
| Staff.NextSerialFollowsLast | src/models/staff.models.js:103-110 | After the id with serial n, the next serial is n + 1. |
| Staff.SerialRoundTrip | src/models/staff.models.js:106-113 | Parsing `split("-")[2]` of a generated id gives back its serial. |
| Staff.SplitEmployeeId | src/models/staff.models.js:107 | A generated id splits into "EMP", the year and the padded serial. |
| Staff.PaddedSerialValue | src/models/staff.models.js:112 | The padded serial is a non-empty digit string worth the serial. |
| Staff.PaddedSerialWidth | src/models/staff.models.js:112 | Below 100000 the padded serial has exactly five characters. |
| Staff.IdOrderMatchesSerialOrder | src/models/staff.models.js:100-112 | Below 100000, the string order of same-year ids is the numeric order of their serials. |
| Staff.GreatestIdHasGreatestSerial | src/models/staff.models.js:97-101 | Below 100000, the id the descending sort puts first carries the largest serial. |
| Staff.GreatestId | src/models/staff.models.js:97-101 | The sort's first id: none iff there are no ids; otherwise one of them, with no id greater in string order. |
| Staff.GreatestOfTwo | src/models/staff.models.js:100 | Of two ids, the string-greater one is picked. |
| Staff.IdOrderBreaksAtSixDigits | src/models/staff.models.js:100-112 | Serial 100000's id sorts below serial 99999's. |
| Staff.PreSaveAfter | src/models/staff.models.js:103-113 | After the id with serial n, the hook issues the id with serial n + 1. |
| Staff.SixDigitSerialRepeats | src/models/staff.models.js:97-113 | As written, with serials 99999 and 100000 issued, the hook issues serial 100000's id again. |
| Staff.MaxSerial | src/models/staff.models.js:103-110 | The largest parsed serial (0 if none), attained by some id. |
| Staff.PreSaveFresh | src/models/staff.models.js:90-114 | Corrected hook: an existing document or a set id is kept. A generated id's serial reads back as the largest serial plus one. |
| Staff.PreSaveFreshIsNew | src/models/staff.models.js:90-114 | Corrected hook: a generated id is never among the year's ids. |
| Staff.AboveMaxIsFresh | src/models/staff.models.js:103-110 | An id whose serial exceeds every parsed serial is not among the ids. |
| Staff.MaxSerialIs | src/models/staff.models.js:103-110 | An id whose serial bounds every parsed serial gives the maximum. |
| Staff.GreatestIsMax | src/models/staff.models.js:97-110 | Below 100000, the string-greatest id carries the maximum serial. |
| Staff.FreshAgreesBelowSixDigits | src/models/staff.models.js:97-113 | Below 100000, the as-written and corrected hooks choose the same next serial. |
| Staff.ValidateEnum | src/models/staff.models.js:8-60 | A value is accepted iff it is present and in the field's list. A missing or empty value fails `required`. |
| Staff.ApplyLeaveDefaults | src/models/staff.models.js:70-74 | An absent casual, sick or unpaid quota defaults to 12, 10 or "unlimited"; a given one is kept. |
| Text.SortedOptions | src/app/students/page.jsx:98-101 | `[...new Set(xs)].filter(Boolean).sort()`: strictly sorted, exactly the non-empty values, and no longer than the input. |
| Text.TrimEmptyIffBlank | src/app/attendance/page.jsx:208 | `trim()` is empty iff the string is all whitespace. |
| Text.UpperFirst | src/app/attendance/page.jsx:175 | Only the first character is upper-cased; the length is kept. |
| Text.StrLessIsOrder | src/app/exams/page.jsx:214 | The default sort order on strings is a strict total order. |
| Text.StrLessCommonPrefix | src/models/staff.models.js:100 | A common prefix does not change the order. |
| Text.SplitThree | src/models/staff.models.js:107 | Splitting a+sep+b+sep+c, where no part holds sep, gives [a, b, c]. |
| Text.SplitPiecesFree | src/models/staff.models.js:107 | No piece of a split holds the separator. |
| Text.TrimStartSuffix | src/models/staff.models.js:108 | The leading-whitespace skip of `parseInt` keeps a suffix of its input. |
| Numerals.PadStart | src/models/staff.models.js:112 | `padStart`: the length is max(|s|, width), the value ends with s, and the rest is fill. |
| Numerals.NatToStringValue | src/models/staff.models.js:112 | `toString()` of n is a non-empty digit string worth n. |
| Numerals.NatToStringLength | src/models/staff.models.js:112 | A number below 10^k has at most k digits. |
| Numerals.LeadingZerosValue | src/models/staff.models.js:112 | Leading zeros do not change the value. |
| Numerals.ParseIntDigits | src/models/staff.models.js:108 | `parseInt` of a digit string is its value. |
| Numerals.EqualLengthDigitOrder | src/models/staff.models.js:100 | For digit strings of equal length, the string order is the numeric order. |
| Seqs.Overwrite | src/app/exams/page.jsx:253-257 | The keys after a sequence of writes are the old keys plus the written ones. |
| Seqs.OverwriteLastWins | src/app/exams/page.jsx:254-257 | A written key holds the value of its last write. |
| Seqs.OverwriteKeeps | src/app/exams/page.jsx:253 | A key that is never written keeps its value. |
| Seqs.FlattenCons | src/app/assignments/page.jsx:98 | Flattening puts the first sequence's items first. |
| Seqs.PartitionLength | src/app/attendance/page.jsx:297-298 | Filtering on a test and on its negation splits the length. |
| Seqs.Filter | src/app/attendance/page.jsx:275 | `Array.prototype.filter`: an order-preserving subsequence holding exactly the elements that pass, each as often as in the input. |
| Seqs.IsSubseqCounts | src/app/attendance/page.jsx:275 | A subsequence holds no element more often than the sequence it is taken from. |
| Seqs.Find | src/app/assignments/page.jsx:162-169 | `Array.prototype.find`: none iff nothing matches; otherwise the element at the first matching position. |
| Seqs.FilterUnique | src/app/attendance/page.jsx:275 | A subsequence with the filter's multiplicities is the filter's result, so the subsequence and multiplicity clauses above pin each filtered list down exactly. |

## Left out

- HTTP (axios), `localStorage` and JWT decoding: responses, the session claims and the signed-in ids are inputs. Whether a POST was accepted is a boolean input.
- The `Promise.all` fan-out and stale-response races: event-loop concurrency. Each fetch result is given in roster order.
- React rendering, effects, dialogs, toasts and alerts: only the state they lead to is modelled.
- Locale time formatting (`toLocaleTimeString`, `toLocaleString`, `format`): "now" and the record times are already formatted strings, and dates are day numbers.
- Time zones: the browser's zone is a fixed offset from UTC (`offset` ms, local = UTC + offset). Daylight-saving changes are not modelled, so a local day is always 86 400 000 ms long.
- `Date.now()` history ids and history timestamps are not part of a change record.
- `Number(value)` on the mark input is abstracted as `Exams.MarkInput` (blank, an integer, or not a number). Fractional marks and floating-point precision are not modelled.
- Case folding is ASCII-only. The string order compares characters, which equals JavaScript's UTF-16 order only for characters in the Basic Multilingual Plane.
- The Mongo `findOne` query and its `$regex`: the caller supplies the ids of the year, and `Staff.PreSave` takes the last one as an input.
- `parseInt` of numbers past 2^53 and `Infinity`: integers are unbounded.
- `DAY_MAP` lookups of inherited object keys (such as "constructor") are not modelled; only the seven codes are keys.
- Invalid dates (`NaN` timestamps) in the assignment date filter: dates are always valid day numbers.
- After a successful create, the form reset and the refetch of the assignment list.
- The attendance percentage display (floating point).
- The page-level error path of the attendance load (the roster request failing): only the per-student fallback is modelled.
- Non-integer periods in the timetable: periods are integers or missing.
- Attendance.BuildAttendanceMap: for a repeated student id, it states the value for the last occurrence only, since that is the write that stays.
- Attendance.ChangeAttendance: the change dialog opens only from the marked list, so the student always has an entry. For a student without one, the source's queued history update would fail reading `previous.status` while the page renders. The model states only that the history is unchanged there.
- Attendance.FilteredStudents: a student without a name or roll number makes the source's search test throw, since it calls `toLowerCase()` without optional chaining (src/app/attendance/page.jsx:280-281). The model reads the missing field as "" and applies the test.
- Staff.PreSave: for a previous id whose serial does not parse, the source issues `EMP-YYYY-00NaN`. The contract gives that id's pieces ("EMP", the year, "00NaN") but no read-back serial, since `parseInt("00NaN")` is 0 and NaN has no integer value.
- Timetable.GroupByDay: requires every placed entry to name one of the seven days, since otherwise the source writes into a missing row and fails.

## Findings

| source | as written | input that shows it | evidently intended | confidence | as-written member | corrected member |
|---|---|---|---|---|---|---|
| src/app/exams/page.jsx:220 | The mark input is clamped to [0, 100], while the validity flag (line 542) checks [0, maxMarks] | 80 typed for a subject out of 50 is stored as 80 and flagged invalid; 120 typed for a subject out of 150 is cut to 100 | The clamp uses the subject's ceiling, so every stored mark is valid | not executed | Exams.ClampMark / Exams.ClampAdmitsInvalidMark | Exams.ClampMarkTo / Exams.HandleMarkChangeCapped |
| src/app/assignments/page.jsx:138-142 | The from bound `new Date(dateFrom)` is midnight UTC of the from day. The to bound is `new Date(dateTo)` moved by `setHours(23, 59, 59, 999)` in the local zone, on the local day that UTC midnight falls on | In UTC+5:30 with from = to = D, an assignment created at 01:00 local on D is before 05:30 local and is dropped. In UTC−5 the to bound is 23:59:59.999 local on D−1, so nothing created on D passes | Both bounds are whole local days, inclusive: an assignment passes iff its local creation day lies between them | not executed | Assignments.ToBoundAsWritten / Assignments.AsWrittenFromMissesLocalMidnight / Assignments.AsWrittenToMissesLocalDay | Assignments.DateRangeIsDayRange / Assignments.FilteredAssignments |
| src/models/staff.models.js:100 | The "last" id is found by a descending string sort on `employeeId`, and padding to five digits stops fixing the width at 100000 | With EMP-2025-99999 and EMP-2025-100000 on file, the sort picks 99999 and the hook issues EMP-2025-100000 again. Since `employeeId` is declared `unique: true` (line 24), that save then fails with a duplicate-key error, so no further staff member can be created that year | The next serial continues from the numerically largest serial, so a generated id is never one already issued | not executed | Staff.GreatestId / Staff.SixDigitSerialRepeats | Staff.PreSaveFresh / Staff.FreshAgreesBelowSixDigits |

=== FILE: assignments.dfy ===
/** The assignments page: the class, section and created-date filters, the section
    list of the chosen class, the sections flattened out of the teacher's
    allocation, and the validation and payload of "create assignment". */
module Assignments {
  import opened Wrappers
  import opened Seqs

  /** Milliseconds in a day. */
  const MsPerDay: int := 86400000

  /** An assignment as listed; `createdAt` is a timestamp in milliseconds. */
  datatype Assignment = Assignment(id: string, title: string, className: string, sectionName: string,
                                   createdAt: int)

  /** The four filters. The class and section selects use "" for "all"; a date
      bound is a day number (days since the epoch), absent when its input is empty. */
  datatype Filters = Filters(className: string, sectionName: string, from: Option<int>, to: Option<int>)

  /** Midnight UTC at the start of a day: `new Date("YYYY-MM-DD")` reads a date
      input's value this way. */
  function DayStart(day: int): int
  {
    day * MsPerDay
  }

  /** 23:59:59.999 of a day, counted on the same clock as `DayStart`. */
  function EndOfDay(day: int): (t: int)
    ensures t == DayStart(day + 1) - 1
  {
    DayStart(day) + 23 * 3600000 + 59 * 60000 + 59 * 1000 + 999
  }

  /** The day a timestamp falls on. */
  function DayOf(t: int): int
  {
    t / MsPerDay
  }

  /** The calendar day of instant `t` in a zone `offset` milliseconds ahead of UTC. */
  function LocalDay(t: int, offset: int): int
  {
    DayOf(t + offset)
  }

  /** `new Date(dateTo)` followed by `setHours(23, 59, 59, 999)`: the date is read
      as midnight UTC, and the hours are then set in the local zone, on the local
      day that midnight falls on. */
  function ToBoundAsWritten(day: int, offset: int): (t: int)
    ensures 0 <= offset < MsPerDay ==> t == EndOfDay(day) - offset
    ensures -MsPerDay <= offset < 0 ==> t == EndOfDay(day - 1) - offset
  {
    if 0 <= offset < MsPerDay then
      DayOfShifted(day, offset);
      EndOfDay(LocalDay(DayStart(day), offset)) - offset
    else if -MsPerDay <= offset < 0 then
      DayOfShifted(day - 1, offset + MsPerDay);
      assert DayStart(day) + offset == DayStart(day - 1) + (offset + MsPerDay);
      EndOfDay(LocalDay(DayStart(day), offset)) - offset
    else
      EndOfDay(LocalDay(DayStart(day), offset)) - offset
  }

  /** A timestamp `r` milliseconds into a day falls on that day. */
  lemma DayOfShifted(day: int, r: int)
    requires 0 <= r < MsPerDay
    ensures DayOf(DayStart(day) + r) == day
  {
    var q := DayOf(DayStart(day) + r);
    var m := (DayStart(day) + r) % MsPerDay;
    assert DayStart(day) + r == q * MsPerDay + m && 0 <= m < MsPerDay;
    DayBounds(q, m, day);
    DayBounds(q, m, day + 1);
  }

  /** The date test as the source writes it: on or after midnight UTC of the from
      day, and on or before the local 23:59:59.999 set on the to date. */
  predicate InDateRangeAsWritten(t: int, from: Option<int>, to: Option<int>, offset: int)
  {
    && (from.None? || t >= DayStart(from.value))
    && (to.None? || t <= ToBoundAsWritten(to.value, offset))
  }

  /** The date test with both bounds in the local zone: on or after local midnight
      of the from day, and on or before local 23:59:59.999 of the to day. An absent
      bound does not constrain. */
  predicate InDateRange(t: int, from: Option<int>, to: Option<int>, offset: int)
  {
    && (from.None? || t >= DayStart(from.value) - offset)
    && (to.None? || t <= EndOfDay(to.value) - offset)
  }

  /** Both bounds are inclusive whole local days: a timestamp passes exactly when
      the local day it falls on lies between them. */
  lemma DateRangeIsDayRange(t: int, from: Option<int>, to: Option<int>, offset: int)
    ensures InDateRange(t, from, to, offset) <==>
              && (from.None? || from.value <= LocalDay(t, offset))
              && (to.None? || LocalDay(t, offset) <= to.value)
  {
    var d := LocalDay(t, offset);
    var r := (t + offset) % MsPerDay;
    assert t + offset == d * MsPerDay + r && 0 <= r < MsPerDay;
    if from.Some? {
      DayBounds(d, r, from.value);
    }
    if to.Some? {
      DayBounds(d, r, to.value + 1);
    }
  }

  /** In UTC the written test is the local-day test. */
  lemma AsWrittenAgreesAtUtc(t: int, from: Option<int>, to: Option<int>)
    ensures InDateRangeAsWritten(t, from, to, 0) <==> InDateRange(t, from, to, 0)
  {
  }

  /** East of UTC the written from bound starts late: local midnight of the from
      day, which is on that day, fails it. */
  lemma AsWrittenFromMissesLocalMidnight(day: int, offset: int)
    requires 0 < offset < MsPerDay
    ensures LocalDay(DayStart(day) - offset, offset) == day
    ensures InDateRange(DayStart(day) - offset, Some(day), None, offset)
    ensures !InDateRangeAsWritten(DayStart(day) - offset, Some(day), None, offset)
  {
    DayOfShifted(day, 0);
  }

  /** West of UTC the written to bound ends a day early: no instant of the local to
      day passes it. */
  lemma AsWrittenToMissesLocalDay(t: int, day: int, offset: int)
    requires -MsPerDay < offset < 0
    requires LocalDay(t, offset) == day
    ensures InDateRange(t, None, Some(day), offset)
    ensures !InDateRangeAsWritten(t, None, Some(day), offset)
  {
    DateRangeIsDayRange(t, None, Some(day), offset);
    DateRangeIsDayRange(t, Some(day), None, offset);
  }

  /** For a timestamp `d * day + r` inside day `d`, comparing with the start of day
      `k` is comparing `d` with `k`. */
  lemma DayBounds(d: int, r: int, k: int)
    requires 0 <= r < MsPerDay
    ensures d * MsPerDay + r >= k * MsPerDay <==> d >= k
  {
    if d >= k {
      assert (d - k) * MsPerDay >= 0;
    } else {
      assert (k - d) * MsPerDay >= MsPerDay;
    }
  }

  function ClassTest(c: string): Assignment -> bool
  {
    (a: Assignment) => a.className == c
  }

  function SectionTest(s: string): Assignment -> bool
  {
    (a: Assignment) => a.sectionName == s
  }

  function DateTest(from: Option<int>, to: Option<int>, offset: int): Assignment -> bool
  {
    (a: Assignment) => InDateRange(a.createdAt, from, to, offset)
  }

  /** The filter effect: the class filter, then the section filter, each only when
      set, then the date filter when either bound is set, with both date bounds in
      the browser's zone, `offset` milliseconds ahead of UTC. */
  function FilteredAssignments(assignments: seq<Assignment>, f: Filters, offset: int): (r: seq<Assignment>)
    ensures IsSubseq(r, assignments)
    ensures forall a :: a in r <==>
              && a in assignments
              && (f.className == "" || a.className == f.className)
              && (f.sectionName == "" || a.sectionName == f.sectionName)
              && InDateRange(a.createdAt, f.from, f.to, offset)
    ensures forall a :: multiset(r)[a] ==
              if && (f.className == "" || a.className == f.className)
                 && (f.sectionName == "" || a.sectionName == f.sectionName)
                 && InDateRange(a.createdAt, f.from, f.to, offset)
              then multiset(assignments)[a] else 0
  {
    var byClass := FilterWhen(assignments, f.className != "", ClassTest(f.className));
    var bySection := FilterWhen(byClass, f.sectionName != "", SectionTest(f.sectionName));
    var byDate := FilterWhen(bySection, f.from.Some? || f.to.Some?, DateTest(f.from, f.to, offset));
    IsSubseqTrans(bySection, byClass, assignments);
    IsSubseqTrans(byDate, bySection, assignments);
    forall a ensures multiset(byDate)[a] ==
                       if && (f.className == "" || a.className == f.className)
                          && (f.sectionName == "" || a.sectionName == f.sectionName)
                          && InDateRange(a.createdAt, f.from, f.to, offset)
                       then multiset(assignments)[a] else 0 {
      assert multiset(byDate)[a] == if InDateRange(a.createdAt, f.from, f.to, offset) then multiset(bySection)[a] else 0;
      assert multiset(bySection)[a] == if f.sectionName == "" || a.sectionName == f.sectionName then multiset(byClass)[a] else 0;
    }
    byDate
  }

  /** Choosing a class in the class select; the section filter is reset with it. */
  function SelectClass(f: Filters, className: string): (r: Filters)
    ensures r.className == className && r.sectionName == ""
    ensures r.from == f.from && r.to == f.to
  {
    f.(className := className, sectionName := "")
  }

  /** After a class is chosen the list is filtered by that class and the dates only,
      whatever section was selected before. */
  lemma SelectClassDropsSection(assignments: seq<Assignment>, f: Filters, className: string, offset: int)
    ensures forall a :: a in FilteredAssignments(assignments, SelectClass(f, className), offset) <==>
              && a in assignments
              && (className == "" || a.className == className)
              && InDateRange(a.createdAt, f.from, f.to, offset)
  {
  }

  /** `clearFilters`. */
  function ClearFilters(): (f: Filters)
    ensures f.className == "" && f.sectionName == "" && f.from.None? && f.to.None?
  {
    Filters("", "", None, None)
  }

  /** With the filters cleared the list is every assignment, in order. */
  lemma ClearFiltersShowsAll(assignments: seq<Assignment>, offset: int)
    ensures FilteredAssignments(assignments, ClearFilters(), offset) == assignments
  {
  }

  /* ---------------------------------------------------------------- */
  /*  Classes and sections of the teacher's allocation                */
  /* ---------------------------------------------------------------- */

  datatype SectionRef = SectionRef(sectionId: string, sectionName: string)

  /** One class of the allocation response, with its sections. */
  datatype AllocatedClass = AllocatedClass(classId: string, className: string, sections: seq<SectionRef>)

  /** An entry of the class select. */
  datatype ClassOption = ClassOption(id: string, name: string)

  /** An entry of the flattened section list: a section with its class's id. */
  datatype SectionOption = SectionOption(classId: string, sectionId: string, sectionName: string)

  /** `availableClasses`: one option per allocated class, in order. */
  function AvailableClasses(classes: seq<AllocatedClass>): (r: seq<ClassOption>)
    ensures |r| == |classes|
    ensures forall i :: 0 <= i < |classes| ==> r[i].id == classes[i].classId && r[i].name == classes[i].className
  {
    Map(classes, (c: AllocatedClass) => ClassOption(c.classId, c.className))
  }

  /** The number of sections over all classes. */
  function SectionCount(classes: seq<AllocatedClass>): nat
  {
    if classes == [] then 0 else |classes[0].sections| + SectionCount(classes[1..])
  }

  /** A section of class `c`, tagged with the class's id. */
  predicate SectionOf(c: AllocatedClass, x: SectionOption)
  {
    x.classId == c.classId && SectionRef(x.sectionId, x.sectionName) in c.sections
  }

  function TagSections(c: AllocatedClass): (r: seq<SectionOption>)
    ensures |r| == |c.sections|
    ensures forall x :: x in r <==> SectionOf(c, x)
  {
    var r := Map(c.sections, (s: SectionRef) => SectionOption(c.classId, s.sectionId, s.sectionName));
    assert forall x :: SectionOf(c, x) ==> x in r by {
      forall x | SectionOf(c, x) ensures x in r {
        var i :| 0 <= i < |c.sections| && c.sections[i] == SectionRef(x.sectionId, x.sectionName);
        assert r[i] == x;
      }
    }
    r
  }

  /** `availableSections`: every section of every class, class by class, each
      carrying its parent class's id. */
  function FlattenSections(classes: seq<AllocatedClass>): (r: seq<SectionOption>)
    ensures |r| == SectionCount(classes)
    ensures forall x :: x in r <==> exists c :: c in classes && SectionOf(c, x)
    ensures r == Flatten(Map(classes, TagSections))
    decreases |classes|
  {
    if classes == [] then []
    else
      var rest := FlattenSections(classes[1..]);
      assert forall c :: c in classes <==> c == classes[0] || c in classes[1..];
      assert Map(classes, TagSections) == [TagSections(classes[0])] + Map(classes[1..], TagSections);
      FlattenCons(TagSections(classes[0]), Map(classes[1..], TagSections));
      TagSections(classes[0]) + rest
  }

  /** `filteredSections`: no sections while no class is chosen; otherwise the
      sections whose class id is that of the first class with the chosen name (none
      if there is no such class). */
  function FilteredSections(selected: string, classes: seq<ClassOption>, sections: seq<SectionOption>): (r: seq<SectionOption>)
    ensures selected == "" ==> r == []
    ensures IsSubseq(r, sections)
    ensures selected != "" ==>
              match Find(classes, (c: ClassOption) => c.name == selected)
              case None => r == []
              case Some(c) =>
                && (forall x :: x in r <==> x in sections && x.classId == c.id)
                && (forall x :: multiset(r)[x] == if x.classId == c.id then multiset(sections)[x] else 0)
  {
    IsSubseqRefl(sections);
    if selected == "" then []
    else
      match Find(classes, (c: ClassOption) => c.name == selected)
      case None =>
        assert IsSubseq([], sections);
        []
      case Some(c) => Filter(sections, (x: SectionOption) => x.classId == c.id)
  }

  /* ---------------------------------------------------------------- */
  /*  Creating an assignment                                          */
  /* ---------------------------------------------------------------- */

  /** The create dialog's form. */
  datatype Form = Form(title: string, className: string, sectionName: string, dueDate: string, description: string)

  /** The body of the create request. */
  datatype NewAssignment = NewAssignment(
    title: string, description: string, institutionId: string,
    classId: string, className: string, sectionId: string, sectionName: string,
    subject: string, dueDate: string, total: int, submitted: int, status: string, createdBy: string)

  /** Why no request is sent: a required field is empty (the alert), or the chosen
      class or section is not in the loaded lists (building the payload fails). */
  datatype CreateError = MissingRequired | UnknownClass | UnknownSection

  predicate HasRequired(form: Form)
  {
    form.title != "" && form.className != "" && form.sectionName != "" && form.dueDate != ""
  }

  /** `teacherSubject?.name || "Unknown"`. */
  function SubjectName(subject: Option<string>): (n: string)
    ensures subject.Some? && subject.value != "" ==> n == subject.value
    ensures subject.None? || subject.value == "" ==> n == "Unknown"
  {
    if subject.Some? && subject.value != "" then subject.value else "Unknown"
  }

  /** `i` is the first class option named `name`, the one `availableClasses.find` returns. */
  predicate FirstClassNamed(classes: seq<ClassOption>, i: int, name: string)
  {
    0 <= i < |classes| && classes[i].name == name && forall j :: 0 <= j < i ==> classes[j].name != name
  }

  /** `k` is the first section option of class `classId` named `name`, the one
      `availableSections.find` returns. */
  predicate FirstSectionOf(sections: seq<SectionOption>, k: int, classId: string, name: string)
  {
    && 0 <= k < |sections| && sections[k].classId == classId && sections[k].sectionName == name
    && forall j :: 0 <= j < k ==> !(sections[j].classId == classId && sections[j].sectionName == name)
  }

  /** `handleCreateAssignment` up to the request: the request body, or why none is
      sent. */
  function CreateAssignment(form: Form, classes: seq<ClassOption>, sections: seq<SectionOption>,
                            subject: Option<string>, institutionId: string, teacherId: string): (r: Result<NewAssignment, CreateError>)
    ensures !HasRequired(form) <==> r == Err(MissingRequired)
    ensures r.Ok? ==>
              && r.value.total == 0 && r.value.submitted == 0 && r.value.status == "not-completed"
              && r.value.subject == SubjectName(subject)
              && r.value.title == form.title && r.value.description == form.description
              && r.value.dueDate == form.dueDate && r.value.createdBy == teacherId
              && r.value.institutionId == institutionId
              && r.value.className == form.className && r.value.sectionName == form.sectionName
              && ClassOption(r.value.classId, r.value.className) in classes
              && SectionOption(r.value.classId, r.value.sectionId, r.value.sectionName) in sections
    ensures r.Ok? ==> exists i :: FirstClassNamed(classes, i, form.className) && classes[i].id == r.value.classId
    ensures r.Ok? ==> exists k :: FirstSectionOf(sections, k, r.value.classId, form.sectionName) &&
                                  sections[k].sectionId == r.value.sectionId
    ensures HasRequired(form) ==> ((forall c :: c in classes ==> c.name != form.className) <==> r == Err(UnknownClass))
    ensures HasRequired(form) ==>
              forall i :: FirstClassNamed(classes, i, form.className) ==>
                ((forall k :: 0 <= k < |sections| ==> !(sections[k].classId == classes[i].id && sections[k].sectionName == form.sectionName))
                 <==> r == Err(UnknownSection))
  {
    if !HasRequired(form) then Err(MissingRequired)
    else
      match Find(classes, (c: ClassOption) => c.name == form.className)
      case None => Err(UnknownClass)
      case Some(c) =>
        match Find(sections, (s: SectionOption) => s.classId == c.id && s.sectionName == form.sectionName)
        case None => Err(UnknownSection)
        case Some(s) =>
          Ok(NewAssignment(form.title, form.description, institutionId, c.id, c.name, s.sectionId, s.sectionName,
                           SubjectName(subject), form.dueDate, 0, 0, "not-completed", teacherId))
  }

  /** A complete form whose class and section come from the loaded lists is always
      turned into a request. */
  lemma {:induction false} CreateSucceedsForListedChoice(form: Form, classes: seq<ClassOption>, sections: seq<SectionOption>,
                                                         subject: Option<string>, institutionId: string, teacherId: string)
    requires HasRequired(form)
    requires exists c :: c in classes && c.name == form.className &&
               exists s :: s in sections && s.classId == c.id && s.sectionName == form.sectionName
    requires forall c, d :: c in classes && d in classes && c.name == d.name ==> c == d
    ensures CreateAssignment(form, classes, sections, subject, institutionId, teacherId).Ok?
  {
    var c :| c in classes && c.name == form.className &&
             exists s :: s in sections && s.classId == c.id && s.sectionName == form.sectionName;
    var s :| s in sections && s.classId == c.id && s.sectionName == form.sectionName;
    var found := Find(classes, (x: ClassOption) => x.name == form.className);
    assert found == Some(c);
    var i :| 0 <= i < |sections| && sections[i] == s;
    assert (s.classId == c.id && s.sectionName == form.sectionName);
  }
}

=== FILE: attendance.dfy ===
/** The attendance page: the per-student status map built from the day's fetch
    results, marking and changing a student's status, the three-way filter and the
    marked/unmarked statistics. */
module Attendance {
  import opened Wrappers
  import opened Seqs
  import opened Sorting
  import Text
  import opened Roster

  /** One student's attendance for the selected day. `time` is the already
      formatted clock time, or "-". */
  datatype Entry = Entry(status: string, time: string, marked: bool)

  /** The entry of a student with no attendance record. */
  const Unmarked: Entry := Entry("unmarked", "-", false)

  /** An attendance record as the backend returns it; `time` stands for the
      formatted `createdAt`. */
  datatype Record = Record(status: string, time: string)

  /** The body of one per-student attendance response. */
  datatype Response = Response(success: bool, data: seq<Record>)

  /** The settled per-student request: a body, or a rejected request. */
  datatype FetchResult = Delivered(body: Response) | Failed

  /** A rejected request reads as an unsuccessful response with no records. */
  function Settle(f: FetchResult): (r: Response)
    ensures f.Failed? ==> !r.success && r.data == []
    ensures f.Delivered? ==> r == f.body
  {
    match f
    case Delivered(body) => body
    case Failed => Response(false, [])
  }

  /** The entry one response yields: the first record, status lower-cased, when the
      response succeeded with at least one record; otherwise unmarked. */
  function EntryFor(res: Response): (e: Entry)
    ensures e.marked <==> res.success && |res.data| > 0
    ensures e.marked ==> e.status == Text.ToLower(res.data[0].status) && e.time == res.data[0].time
    ensures !e.marked ==> e == Unmarked
  {
    if res.success && |res.data| > 0 then Entry(Text.ToLower(res.data[0].status), res.data[0].time, true)
    else Unmarked
  }

  /** The map writes of the load, one per fetched student, in roster order. */
  function LoadWrites(students: seq<Student>, results: seq<FetchResult>): (w: seq<(string, Entry)>)
    requires |results| == |students|
    ensures |w| == |students|
    ensures forall i :: 0 <= i < |students| ==> w[i] == (students[i].id, EntryFor(Settle(results[i])))
  {
    seq(|students|, i requires 0 <= i < |students| => (students[i].id, EntryFor(Settle(results[i]))))
  }

  /** The ids of a roster. */
  function Ids(students: seq<Student>): set<string>
  {
    set i | 0 <= i < |students| :: students[i].id
  }

  /** `students[i]` is the last roster entry with its id, so its write is the one
      that stays in the map. */
  predicate LastWithId(students: seq<Student>, i: int)
    requires 0 <= i < |students|
  {
    forall j :: i < j < |students| ==> students[j].id != students[i].id
  }

  /** The attendance map after loading: results[i] is the settled response for
      students[i]. Every fetched student has an entry, and it is the one its own
      response yields (for repeated ids, the last one's). */
  function BuildAttendanceMap(students: seq<Student>, results: seq<FetchResult>): (m: map<string, Entry>)
    requires |results| == |students|
    ensures m.Keys == Ids(students)
    ensures forall i :: 0 <= i < |students| && LastWithId(students, i) ==>
              m[students[i].id] == EntryFor(Settle(results[i]))
  {
    var w := LoadWrites(students, results);
    OverwriteFacts(map[], w);
    assert WrittenKeys(w) == Ids(students) by {
      forall k | k in Ids(students) ensures k in WrittenKeys(w) {
        var i :| 0 <= i < |students| && students[i].id == k;
        assert w[i].0 == k;
      }
    }
    Overwrite(map[], w)
  }

  /** A student whose request was rejected is shown as unmarked, not as an error. */
  lemma FailedFetchIsUnmarked(students: seq<Student>, results: seq<FetchResult>, i: nat)
    requires |results| == |students| && i < |students|
    requires LastWithId(students, i) && results[i].Failed?
    ensures BuildAttendanceMap(students, results)[students[i].id] == Unmarked
  {
  }

  /** After loading, a student counts as marked exactly when its response succeeded
      with at least one record. */
  lemma {:induction false} LoadedMarkedIff(students: seq<Student>, results: seq<FetchResult>, i: nat)
    requires |results| == |students| && i < |students| && LastWithId(students, i)
    ensures var e := BuildAttendanceMap(students, results)[students[i].id];
            e.marked <==> results[i].Delivered? && results[i].body.success && |results[i].body.data| > 0
  {
    var e := EntryFor(Settle(results[i]));
    assert e.marked <==> Settle(results[i]).success && |Settle(results[i]).data| > 0;
  }

  /** The entry the page reads for a student: its map entry, or unmarked. */
  function Lookup(data: map<string, Entry>, id: string): (e: Entry)
    ensures id in data ==> e == data[id]
    ensures id !in data ==> !e.marked && e.status == "unmarked"
  {
    if id in data then data[id] else Unmarked
  }

  /** The staff session claims the requests carry. */
  datatype Session = Session(staffId: string, institutionId: string)

  /** The body of an attendance POST. */
  datatype Post = Post(studentId: string, classId: string, sectionId: string, date: string,
                       status: string, remarks: string, markedBy: string, institutionId: string)

  /** The class id a POST carries: the grade's id when the record has one. */
  function PostClassId(s: Student): (c: string)
    ensures s.classGradeId != "" ==> c == s.classGradeId
    ensures s.classGradeId == "" ==> c == s.classId
  {
    if s.classGradeId != "" then s.classGradeId else s.classId
  }

  function PostFor(s: Student, date: string, status: string, remarks: string, session: Session): Post
  {
    Post(s.id, PostClassId(s), s.sectionId, date, Text.UpperFirst(status), remarks, session.staffId, session.institutionId)
  }

  /** One "status change" history record. */
  datatype Change = Change(studentId: string, studentName: string, previousStatus: string,
                           newStatus: string, reason: string)

  /** The page state the handlers update. */
  datatype Page = Page(students: seq<Student>, data: map<string, Entry>, history: seq<Change>)

  /** A handler's effect: the new state and the POST sent, if any. */
  datatype Outcome = Outcome(page: Page, request: Option<Post>)

  /** The entry a successful POST of `status` leaves behind. */
  function MarkedEntry(status: string, now: string): (e: Entry)
    ensures e.marked && e.status == status
    ensures e.time == (if status == "present" then now else "-")
  {
    Entry(status, if status == "present" then now else "-", true)
  }

  /** `i` is the first roster position holding `id`, the entry `students.find` returns. */
  predicate FirstWithId(students: seq<Student>, i: int, id: string)
  {
    0 <= i < |students| && students[i].id == id && forall j :: 0 <= j < i ==> students[j].id != id
  }

  /** `markAttendance(studentId, status)`: first marking, no reason asked. An id not
      in the roster sends nothing and changes nothing. Otherwise the POST carries the
      class and section of the first roster entry with that id, the selected date,
      the session's staff and institution ids, the status with its first letter
      upper-cased and empty remarks; if the backend accepts it, only that student's
      entry changes. */
  function MarkAttendance(p: Page, studentId: string, status: string, now: string, date: string,
                          session: Session, accepted: bool): (r: Outcome)
    ensures (forall j :: 0 <= j < |p.students| ==> p.students[j].id != studentId) ==> r == Outcome(p, None)
    ensures r.request.Some? ==>
              && r.request.value.studentId == studentId
              && r.request.value.status == Text.UpperFirst(status)
              && r.request.value.remarks == ""
              && exists s :: s in p.students && s.id == studentId && r.request.value.classId == PostClassId(s)
    ensures r.request.Some? ==>
              && r.request.value.date == date
              && r.request.value.markedBy == session.staffId
              && r.request.value.institutionId == session.institutionId
    ensures forall i :: FirstWithId(p.students, i, studentId) ==>
              && r.request.Some?
              && r.request.value.classId == PostClassId(p.students[i])
              && r.request.value.sectionId == p.students[i].sectionId
    ensures r.request.Some? <==> exists s :: s in p.students && s.id == studentId
    ensures r.page.students == p.students && r.page.history == p.history
    ensures r.request.None? || !accepted ==> r.page == p
    ensures r.request.Some? && accepted ==>
              && r.page.data.Keys == p.data.Keys + {studentId}
              && r.page.data[studentId] == MarkedEntry(status, now)
              && forall k :: k in p.data && k != studentId ==> r.page.data[k] == p.data[k]
  {
    match FindIndex(p.students, (s: Student) => s.id == studentId)
    case None => Outcome(p, None)
    case Some(i) =>
      var s := p.students[i];
      assert s in p.students;
      var post := PostFor(s, date, status, "", session);
      if accepted then Outcome(p.(data := p.data[studentId := MarkedEntry(status, now)]), Some(post))
      else Outcome(p, Some(post))
  }

  /** `handleChangeAttendance` for the student whose dialog is open. Without a new
      status, or with a reason that is blank after trimming, nothing is sent and
      nothing changes. Otherwise the POST carries the reason as remarks; on success
      the student's entry is replaced and one history record is appended, naming the
      status it had before. The dialog only opens from the marked list, so the
      student always has an entry. For a student without one, the source's history
      update would fail reading the previous status while the page renders; the
      model writes the entry, keeps the history, and promises nothing more there. */
  function ChangeAttendance(p: Page, student: Student, selectedStatus: string, reason: string,
                            now: string, date: string, session: Session, accepted: bool): (r: Outcome)
    ensures selectedStatus == "" || Text.IsBlank(reason) ==> r == Outcome(p, None)
    ensures selectedStatus != "" && !Text.IsBlank(reason) ==>
              && r.request.Some?
              && r.request.value.studentId == student.id
              && r.request.value.status == Text.UpperFirst(selectedStatus)
              && r.request.value.remarks == reason
              && r.request.value.classId == PostClassId(student)
              && r.request.value.sectionId == student.sectionId
              && r.request.value.date == date
              && r.request.value.markedBy == session.staffId
              && r.request.value.institutionId == session.institutionId
    ensures r.page.students == p.students
    ensures !accepted ==> r.page == p
    ensures r.request.Some? && accepted ==>
              && r.page.data.Keys == p.data.Keys + {student.id}
              && r.page.data[student.id] == MarkedEntry(selectedStatus, now)
              && forall k :: k in p.data && k != student.id ==> r.page.data[k] == p.data[k]
    ensures r.request.Some? && accepted && student.id in p.data ==>
              && |r.page.history| == |p.history| + 1
              && r.page.history[..|p.history|] == p.history
              && r.page.history[|p.history|]
                 == Change(student.id, student.name, p.data[student.id].status, selectedStatus, reason)
    ensures student.id !in p.data ==> r.page.history == p.history
  {
    Text.TrimEmptyIffBlank(reason);
    if selectedStatus == "" || Text.Trim(reason) == "" then Outcome(p, None)
    else
      var post := PostFor(student, date, selectedStatus, reason, session);
      if !accepted then Outcome(p, Some(post))
      else
        var data := p.data[student.id := MarkedEntry(selectedStatus, now)];
        if student.id in p.data then
          var record := Change(student.id, student.name, p.data[student.id].status, selectedStatus, reason);
          Outcome(Page(p.students, data, p.history + [record]), Some(post))
        else
          Outcome(p.(data := data), Some(post))
  }

  /* ---------------------------------------------------------------- */
  /*  Filters and statistics                                          */
  /* ---------------------------------------------------------------- */

  /** The search box and the two selects. */
  datatype Filters = Filters(search: string, status: string, className: string)

  predicate MatchesSearch(s: Student, query: string)
  {
    Text.ContainsIgnoringCase(s.name, query) || Text.ContainsIgnoringCase(s.rollNumber, query)
  }

  /** "all"; or "unmarked" for a student not marked; or exactly the student's status. */
  predicate MatchesStatus(e: Entry, filter: string)
  {
    filter == "all" || (filter == "unmarked" && !e.marked) || e.status == filter
  }

  predicate MatchesClass(s: Student, filter: string)
  {
    filter == "all" || s.className == filter
  }

  predicate Shown(s: Student, data: map<string, Entry>, f: Filters)
  {
    && MatchesSearch(s, f.search)
    && MatchesStatus(Lookup(data, s.id), f.status)
    && MatchesClass(s, f.className)
  }

  function ShownTest(data: map<string, Entry>, f: Filters): Student -> bool
  {
    s => Shown(s, data, f)
  }

  /** `filteredStudents`: the roster entries passing all three tests, in order. */
  function FilteredStudents(students: seq<Student>, data: map<string, Entry>, f: Filters): (r: seq<Student>)
    ensures IsSubseq(r, students)
    ensures forall s :: s in r <==>
              && s in students
              && MatchesSearch(s, f.search)
              && MatchesStatus(Lookup(data, s.id), f.status)
              && MatchesClass(s, f.className)
    ensures forall s :: multiset(r)[s] == if Shown(s, data, f) then multiset(students)[s] else 0
  {
    Filter(students, ShownTest(data, f))
  }

  function MarkedTest(data: map<string, Entry>): Student -> bool
  {
    (s: Student) => Lookup(data, s.id).marked
  }

  function UnmarkedTest(data: map<string, Entry>): Student -> bool
  {
    (s: Student) => !Lookup(data, s.id).marked
  }

  function StatusTest(data: map<string, Entry>, status: string): Student -> bool
  {
    (s: Student) => Lookup(data, s.id).marked && Lookup(data, s.id).status == status
  }

  /** `markedStudents`. */
  function MarkedStudents(filtered: seq<Student>, data: map<string, Entry>): (r: seq<Student>)
    ensures IsSubseq(r, filtered)
    ensures forall s :: s in r <==> s in filtered && Lookup(data, s.id).marked
    ensures forall s :: multiset(r)[s] == if Lookup(data, s.id).marked then multiset(filtered)[s] else 0
  {
    Filter(filtered, MarkedTest(data))
  }

  /** `unmarkedStudents`. */
  function UnmarkedStudents(filtered: seq<Student>, data: map<string, Entry>): (r: seq<Student>)
    ensures IsSubseq(r, filtered)
    ensures forall s :: s in r <==> s in filtered && !Lookup(data, s.id).marked
    ensures forall s :: multiset(r)[s] == if !Lookup(data, s.id).marked then multiset(filtered)[s] else 0
  {
    Filter(filtered, UnmarkedTest(data))
  }

  /** The marked students whose status is `status` (`presentCount` and the others). */
  function StatusCount(filtered: seq<Student>, data: map<string, Entry>, status: string): nat
  {
    |Filter(filtered, StatusTest(data, status))|
  }

  /** The marked and unmarked lists split the filtered list between them. */
  lemma MarkedUnmarkedPartition(filtered: seq<Student>, data: map<string, Entry>)
    ensures |MarkedStudents(filtered, data)| + |UnmarkedStudents(filtered, data)| == |filtered|
    ensures forall s :: s in filtered <==> s in MarkedStudents(filtered, data) || s in UnmarkedStudents(filtered, data)
    ensures forall s :: !(s in MarkedStudents(filtered, data) && s in UnmarkedStudents(filtered, data))
  {
    PartitionLength(filtered, MarkedTest(data), UnmarkedTest(data));
  }

  /** Present, late and absent together never exceed the marked count. */
  lemma StatusCountsBounded(filtered: seq<Student>, data: map<string, Entry>)
    ensures StatusCount(filtered, data, "present") + StatusCount(filtered, data, "late")
            + StatusCount(filtered, data, "absent") <= |MarkedStudents(filtered, data)|
  {
    var marked := MarkedStudents(filtered, data);
    var a, b, c := StatusTest(data, "present"), StatusTest(data, "late"), StatusTest(data, "absent");
    ExclusiveCountsBounded(marked, a, b, c);
    FilterOfMarked(filtered, data, "present");
    FilterOfMarked(filtered, data, "late");
    FilterOfMarked(filtered, data, "absent");
  }

  /** Counting a status among the marked students is counting it among all of them,
      since only marked entries carry a status the count asks for. */
  lemma {:induction false} FilterOfMarked(filtered: seq<Student>, data: map<string, Entry>, status: string)
    ensures Filter(MarkedStudents(filtered, data), StatusTest(data, status)) == Filter(filtered, StatusTest(data, status))
    decreases |filtered|
  {
    if filtered != [] {
      FilterOfMarked(filtered[1..], data, status);
    }
  }

  /** A successful first marking moves the student out of the unmarked list. */
  lemma MarkedStudentLeavesUnmarked(p: Page, studentId: string, status: string, now: string, date: string,
                                    session: Session, filtered: seq<Student>, s: Student)
    requires s.id == studentId && s in p.students
    ensures var r := MarkAttendance(p, studentId, status, now, date, session, true);
            && s !in UnmarkedStudents(filtered, r.page.data)
            && (s in filtered ==> s in MarkedStudents(filtered, r.page.data))
  {
  }

  /** `clearFilters`. */
  function ClearFilters(): (f: Filters)
    ensures f.search == "" && f.status == "all" && f.className == "all"
  {
    Filters("", "all", "all")
  }

  /** With the filters cleared every student is listed, in roster order. */
  lemma {:induction false} ClearFiltersShowsAll(students: seq<Student>, data: map<string, Entry>)
    ensures FilteredStudents(students, data, ClearFilters()) == students
  {
    forall i | 0 <= i < |students| ensures ShownTest(data, ClearFilters())(students[i]) {
      Text.ContainsEmpty(Text.ToLower(students[i].name));
    }
    FilterAll(students, ShownTest(data, ClearFilters()));
  }
}

=== FILE: exams.dfy ===
/** The exam marks-entry grid: the students of the selected exam's class, filtered
    and shown ten to a page; the one subject the teacher may mark; mark entry with
    clamping; and saving the visible page. */
module Exams {
  import opened Wrappers
  import opened Seqs
  import opened Sorting
  import Text
  import opened Roster

  const PageSize: nat := 10

  datatype Exam = Exam(id: string, classId: string, totalMarks: int)

  /** A subject allocation of the teacher (`classId._id`, `subjectId.name`). */
  datatype Allocation = Allocation(classId: string, subjectName: string)

  /** An exam-schedule entry: the ceiling of one subject in one exam. */
  datatype Schedule = Schedule(examId: string, subject: string, maxMarks: int)

  /* ---------------------------------------------------------------- */
  /*  Filtering and pagination                                        */
  /* ---------------------------------------------------------------- */

  /** A row of the grid: a student of the exam's class, matching the search box on
      name or email (when it is not empty) and the section select (unless "all"). */
  predicate RowMatches(s: Student, exam: Exam, query: string, section: string)
  {
    && s.classId == exam.classId
    && (query == "" || Text.ContainsIgnoringCase(s.name, query) || Text.ContainsIgnoringCase(s.email, query))
    && (section == "all" || s.sectionName == section)
  }

  function RowTest(exam: Exam, query: string, section: string): Student -> bool
  {
    s => RowMatches(s, exam, query, section)
  }

  /** `filteredStudents`: nothing without a selected exam, otherwise the matching
      students in roster order. */
  function FilteredStudents(students: seq<Student>, selected: Option<Exam>, query: string, section: string): (r: seq<Student>)
    ensures selected.None? ==> r == []
    ensures selected.Some? ==> IsSubseq(r, students)
    ensures selected.Some? ==> forall s :: s in r <==> s in students && RowMatches(s, selected.value, query, section)
    ensures selected.Some? ==> forall s :: multiset(r)[s] == if RowMatches(s, selected.value, query, section)
                                                            then multiset(students)[s] else 0
  {
    match selected
    case None => []
    case Some(exam) => Filter(students, RowTest(exam, query, section))
  }

  /** Index normalisation of `Array.prototype.slice`: negative counts from the end,
      and the result is clamped to [0, len]. */
  function SliceIndex(i: int, len: nat): (k: nat)
    ensures k <= len
  {
    if i < 0 then (if len + i < 0 then 0 else len + i)
    else if i > len then len
    else i
  }

  /** `xs.slice(start, end)`. */
  function Slice<T>(xs: seq<T>, start: int, end: int): seq<T>
  {
    var a := SliceIndex(start, |xs|);
    var b := SliceIndex(end, |xs|);
    if a < b then xs[a..b] else []
  }

  /** `paginatedStudents`: the page-th block of ten (pages count from 1). */
  function PageOf<T>(xs: seq<T>, page: int): (r: seq<T>)
    ensures |r| <= PageSize
    ensures page >= 1 ==> |r| == if |xs| <= (page - 1) * PageSize then 0
                                 else if |xs| - (page - 1) * PageSize < PageSize then |xs| - (page - 1) * PageSize
                                 else PageSize
    ensures page >= 1 ==> forall i :: 0 <= i < |r| ==> r[i] == xs[(page - 1) * PageSize + i]
  {
    var start := (page - 1) * PageSize;
    Slice(xs, start, start + PageSize)
  }

  /** `Math.ceil(n / PAGE_SIZE)`. */
  function TotalPages(n: nat): (t: nat)
    ensures t * PageSize >= n
    ensures t > 0 ==> (t - 1) * PageSize < n
    ensures n > 0 ==> t > 0
  {
    (n + PageSize - 1) / PageSize
  }

  /** The first k pages, in order. */
  function Pages<T>(xs: seq<T>, k: nat): seq<seq<T>>
  {
    seq(k, i requires 0 <= i < k => PageOf(xs, i + 1))
  }

  /** Concatenating pages 1..TotalPages gives back the whole filtered list. */
  lemma PagesCoverList<T>(xs: seq<T>)
    ensures Flatten(Pages(xs, TotalPages(|xs|))) == xs
  {
    PagesPrefix(xs, TotalPages(|xs|));
    assert xs[..|xs|] == xs;
  }

  lemma {:induction false} PagesPrefix<T>(xs: seq<T>, k: nat)
    requires k <= TotalPages(|xs|)
    ensures Flatten(Pages(xs, k)) == xs[..if k * PageSize < |xs| then k * PageSize else |xs|]
  {
    if k > 0 {
      var ps := Pages(xs, k);
      assert ps[..k - 1] == Pages(xs, k - 1);
      PagesPrefix(xs, k - 1);
      var start := (k - 1) * PageSize;
      var end := if k * PageSize < |xs| then k * PageSize else |xs|;
      assert start < |xs|;
      var last := PageOf(xs, k);
      assert last == xs[start..end];
      assert xs[..start] + xs[start..end] == xs[..end];
    }
  }

  /** "Previous": `Math.max(1, page - 1)`. */
  function PrevPage(page: int): (r: int)
    ensures r >= 1
    ensures page > 1 ==> r == page - 1
    ensures page <= 1 ==> r == 1
  {
    if page - 1 < 1 then 1 else page - 1
  }

  /** "Next": `Math.min(totalPages, page + 1)`. */
  function NextPage(page: int, totalPages: int): (r: int)
    ensures r <= totalPages
    ensures page < totalPages ==> r == page + 1
    ensures page >= totalPages ==> r == totalPages
  {
    if totalPages < page + 1 then totalPages else page + 1
  }

  /** Navigation keeps a page that lies in [1, totalPages] inside that range. */
  lemma NavigationStaysInRange(page: int, totalPages: int)
    requires 1 <= page <= totalPages
    ensures 1 <= PrevPage(page) <= page
    ensures page <= NextPage(page, totalPages) <= totalPages
  {
  }

  /* ---------------------------------------------------------------- */
  /*  The teacher's subject and the section list                      */
  /* ---------------------------------------------------------------- */

  /** `i` is the first allocation for class `classId`. */
  predicate FirstAllocationFor(allocations: seq<Allocation>, classId: string, i: int)
  {
    && 0 <= i < |allocations|
    && allocations[i].classId == classId
    && forall j :: 0 <= j < i ==> allocations[j].classId != classId
  }

  /** Some schedule entry belongs to this exam and subject. */
  predicate IsScheduled(schedules: seq<Schedule>, examId: string, subject: string)
  {
    exists i :: 0 <= i < |schedules| && schedules[i].examId == examId && schedules[i].subject == subject
  }

  /** `autoSubject`: the subject of the teacher's first allocation for the exam's
      class, provided that subject is scheduled in the exam. */
  function AutoSubject(selected: Option<Exam>, allocations: seq<Allocation>, schedules: seq<Schedule>): (r: Option<string>)
    ensures r.Some? <==>
              && selected.Some?
              && exists i :: FirstAllocationFor(allocations, selected.value.classId, i)
                              && IsScheduled(schedules, selected.value.id, allocations[i].subjectName)
    ensures r.Some? ==> exists i :: FirstAllocationFor(allocations, selected.value.classId, i)
                                     && r.value == allocations[i].subjectName
  {
    match selected
    case None => None
    case Some(exam) =>
      match FindIndex(allocations, (a: Allocation) => a.classId == exam.classId)
      case None => None
      case Some(i) =>
        var subject := allocations[i].subjectName;
        assert FirstAllocationFor(allocations, exam.classId, i);
        if exists j :: 0 <= j < |schedules| && schedules[j].examId == exam.id && schedules[j].subject == subject
        then Some(subject)
        else None
  }

  /** The handlers' `if (!autoSubject)` guard: a subject is usable when it was
      resolved and its name is not the empty string, which is falsy. */
  predicate HasSubject(subject: Option<string>)
  {
    subject.Some? && subject.value != ""
  }

  /** `uniqueSections`: the distinct, non-empty section names of the exam's class,
      in string order. */
  function UniqueSections(students: seq<Student>, selected: Option<Exam>): (r: seq<string>)
    ensures selected.None? ==> r == []
    ensures StrictlySorted(r, Text.StrLess)
    ensures selected.Some? ==> forall x :: x in r <==>
              x != "" && exists s :: s in students && s.classId == selected.value.classId && s.sectionName == x
  {
    match selected
    case None => []
    case Some(exam) =>
      var inClass := Filter(students, (s: Student) => s.classId == exam.classId);
      Text.SortedOptions(Map(inClass, (s: Student) => s.sectionName))
  }

  /* ---------------------------------------------------------------- */
  /*  Mark entry                                                      */
  /* ---------------------------------------------------------------- */

  /** What the mark input holds once read with `Number(value)`: nothing, an integer,
      or something that is not a number. */
  datatype MarkInput = Empty | Number(n: int) | NotANumber

  /** A pending or displayed mark: blank ("") or a score. */
  datatype Mark = Blank | Score(n: int)

  /** The key of a mark in both mark maps: `${examId}-${subject}-${studentId}`. */
  function MarkKey(examId: string, subject: string, studentId: string): string
  {
    examId + "-" + subject + "-" + studentId
  }

  /** Within one exam and subject, different students have different keys. */
  lemma MarkKeyInjective(examId: string, subject: string, a: string, b: string)
    ensures MarkKey(examId, subject, a) == MarkKey(examId, subject, b) ==> a == b
  {
    var prefix := examId + "-" + subject + "-";
    assert MarkKey(examId, subject, a) == prefix + a;
    assert MarkKey(examId, subject, b) == prefix + b;
    assert a == (prefix + a)[|prefix|..];
    assert b == (prefix + b)[|prefix|..];
  }

  /** The clamp of the mark input as written: "" stays blank, anything that is not a
      number becomes 0, and numbers are clamped to [0, 100] whatever the subject's
      ceiling is. */
  function ClampMark(input: MarkInput): (m: Mark)
    ensures input.Empty? <==> m.Blank?
    ensures m.Score? ==> 0 <= m.n <= 100
    ensures input.NotANumber? ==> m == Score(0)
    ensures input.Number? && 0 <= input.n <= 100 ==> m == Score(input.n)
    ensures input.Number? && input.n < 0 ==> m == Score(0)
    ensures input.Number? && input.n > 100 ==> m == Score(100)
  {
    match input
    case Empty => Blank
    case NotANumber => Score(0)
    case Number(n) => Score(if n > 100 then 100 else if n < 0 then 0 else n)
  }

  /** `handleMarkChange`: without a usable subject nothing changes; otherwise only
      the student's key is set, to the clamped input. */
  function HandleMarkChange(exam: Exam, subject: Option<string>, studentId: string, input: MarkInput,
                            marks: map<string, Mark>): (r: map<string, Mark>)
    ensures !HasSubject(subject) ==> r == marks
    ensures HasSubject(subject) ==>
              var k := MarkKey(exam.id, subject.value, studentId);
              && r.Keys == marks.Keys + {k}
              && r[k] == ClampMark(input)
              && (r[k].Score? ==> 0 <= r[k].n <= 100)
              && forall k' :: k' in marks && k' != k ==> r[k'] == marks[k']
  {
    if !HasSubject(subject) then marks
    else marks[MarkKey(exam.id, subject.value, studentId) := ClampMark(input)]
  }

  /** `i` is the first schedule entry for this exam and subject. */
  predicate FirstScheduleFor(schedules: seq<Schedule>, examId: string, subject: string, i: int)
  {
    && 0 <= i < |schedules|
    && schedules[i].examId == examId && schedules[i].subject == subject
    && forall j :: 0 <= j < i ==> !(schedules[j].examId == examId && schedules[j].subject == subject)
  }

  /** `schedule?.maxMarks || exam.totalMarks`: the first matching schedule's ceiling,
      unless there is none or it is 0. */
  function MaxMarksFor(exam: Exam, subject: string, schedules: seq<Schedule>): (r: int)
    ensures forall i :: FirstScheduleFor(schedules, exam.id, subject, i) ==>
              r == if schedules[i].maxMarks != 0 then schedules[i].maxMarks else exam.totalMarks
    ensures !IsScheduled(schedules, exam.id, subject) ==> r == exam.totalMarks
  {
    match FindIndex(schedules, (s: Schedule) => s.examId == exam.id && s.subject == subject)
    case None => exam.totalMarks
    case Some(i) =>
      assert FirstScheduleFor(schedules, exam.id, subject, i);
      if schedules[i].maxMarks != 0 then schedules[i].maxMarks else exam.totalMarks
  }

  /** The mark a row shows: the pending edit, else the saved mark, else blank. */
  function DisplayedMark(marks: map<string, Mark>, existing: map<string, int>, k: string): Mark
  {
    if k in marks then marks[k] else if k in existing then Score(existing[k]) else Blank
  }

  /** `isValid`: a blank mark, or a score within [0, maxMarks]. */
  predicate IsValid(m: Mark, maxMarks: int)
  {
    m.Blank? || 0 <= m.n <= maxMarks
  }

  /** As written, an 80 typed for a subject out of 50 is stored as 80 and flagged invalid. */
  lemma ClampAdmitsInvalidMark()
    ensures ClampMark(Number(80)) == Score(80)
    ensures !IsValid(ClampMark(Number(80)), 50)
  {
  }

  /** As written, a 120 typed for a subject out of 150 is cut down to 100. */
  lemma ClampRejectsValidMark()
    ensures IsValid(Score(120), 150)
    ensures ClampMark(Number(120)) == Score(100)
  {
  }

  /** The clamp as intended: numbers are clamped to [0, maxMarks], so every stored
      score passes the validity flag. */
  function ClampMarkTo(input: MarkInput, maxMarks: int): (m: Mark)
    ensures input.Empty? <==> m.Blank?
    ensures maxMarks >= 0 ==> IsValid(m, maxMarks)
    ensures input.NotANumber? ==> m == Score(0)
    ensures input.Number? && 0 <= input.n <= maxMarks ==> m == Score(input.n)
    ensures input.Number? && input.n > maxMarks && maxMarks >= 0 ==> m == Score(maxMarks)
  {
    match input
    case Empty => Blank
    case NotANumber => Score(0)
    case Number(n) => Score(if n > maxMarks then (if maxMarks < 0 then 0 else maxMarks) else if n < 0 then 0 else n)
  }

  /** Mark entry with the intended clamp to the subject's ceiling. */
  function HandleMarkChangeCapped(exam: Exam, subject: Option<string>, schedules: seq<Schedule>, studentId: string,
                                  input: MarkInput, marks: map<string, Mark>): (r: map<string, Mark>)
    ensures !HasSubject(subject) ==> r == marks
    ensures HasSubject(subject) ==>
              var k := MarkKey(exam.id, subject.value, studentId);
              var ceiling := MaxMarksFor(exam, subject.value, schedules);
              && r.Keys == marks.Keys + {k}
              && (ceiling >= 0 ==> IsValid(r[k], ceiling))
              && forall k' :: k' in marks && k' != k ==> r[k'] == marks[k']
  {
    if !HasSubject(subject) then marks
    else
      var sub := subject.value;
      marks[MarkKey(exam.id, sub, studentId) := ClampMarkTo(input, MaxMarksFor(exam, sub, schedules))]
  }

  /* ---------------------------------------------------------------- */
  /*  Saving                                                          */
  /* ---------------------------------------------------------------- */

  /** One entry of the save request. */
  datatype MarkRow = MarkRow(examId: string, subject: string, studentId: string, studentName: string,
                             marksObtained: int, maxMarks: int)

  function RowKey(p: MarkRow): string
  {
    MarkKey(p.examId, p.subject, p.studentId)
  }

  /** `Number(marks[k] ?? existingMarks[k] ?? 0)`: a blank pending mark counts as 0. */
  function SubmittedMark(marks: map<string, Mark>, existing: map<string, int>, k: string): (v: int)
    ensures k in marks && marks[k].Score? ==> v == marks[k].n
    ensures k in marks && marks[k].Blank? ==> v == 0
    ensures k !in marks && k in existing ==> v == existing[k]
    ensures k !in marks && k !in existing ==> v == 0
  {
    if k in marks then (match marks[k] case Blank => 0 case Score(n) => n)
    else if k in existing then existing[k]
    else 0
  }

  function RowFor(exam: Exam, subject: string, ceiling: int, marks: map<string, Mark>, existing: map<string, int>,
                  s: Student): MarkRow
  {
    MarkRow(exam.id, subject, s.id, s.name, SubmittedMark(marks, existing, MarkKey(exam.id, subject, s.id)), ceiling)
  }

  /** The save request: one entry per student of the visible page, in page order. */
  function SavePayload(exam: Exam, subject: string, schedules: seq<Schedule>, page: seq<Student>,
                       marks: map<string, Mark>, existing: map<string, int>): (r: seq<MarkRow>)
    ensures |r| == |page|
    ensures forall i :: 0 <= i < |page| ==>
              && r[i].examId == exam.id && r[i].subject == subject
              && r[i].studentId == page[i].id && r[i].studentName == page[i].name
              && RowKey(r[i]) == MarkKey(exam.id, subject, page[i].id)
              && r[i].marksObtained == SubmittedMark(marks, existing, MarkKey(exam.id, subject, page[i].id))
              && r[i].maxMarks == MaxMarksFor(exam, subject, schedules)
  {
    var ceiling := MaxMarksFor(exam, subject, schedules);
    Map(page, (s: Student) => RowFor(exam, subject, ceiling, marks, existing, s))
  }

  /** The writes a request performs on the saved marks, in request order. */
  function SaveWrites(payload: seq<MarkRow>): (w: seq<(string, int)>)
    ensures |w| == |payload|
    ensures forall i :: 0 <= i < |payload| ==> w[i] == (RowKey(payload[i]), payload[i].marksObtained)
  {
    Map(payload, (p: MarkRow) => (RowKey(p), p.marksObtained))
  }

  /** The keys a request writes. */
  function RowKeys(payload: seq<MarkRow>): set<string>
  {
    WrittenKeys(SaveWrites(payload))
  }

  /** Merging a successful request into the saved marks: every written key takes the
      value of the last entry that wrote it; every other key keeps its saved value. */
  function MergeSaved(existing: map<string, int>, payload: seq<MarkRow>): (r: map<string, int>)
    ensures r.Keys == existing.Keys + RowKeys(payload)
    ensures forall k :: k in existing && k !in RowKeys(payload) ==> r[k] == existing[k]
    ensures forall i :: 0 <= i < |payload| && (forall j :: i < j < |payload| ==> RowKey(payload[j]) != RowKey(payload[i]))
              ==> r[RowKey(payload[i])] == payload[i].marksObtained
  {
    var w := SaveWrites(payload);
    OverwriteFacts(existing, w);
    Overwrite(existing, w)
  }

  /** The grid's mutable state: pending edits, saved marks and the current page. */
  datatype Grid = Grid(marks: map<string, Mark>, existing: map<string, int>, page: int)

  /** The outcome of "Save All Marks": the new grid and the request sent, if any. */
  datatype SaveOutcome = SaveOutcome(grid: Grid, request: Option<seq<MarkRow>>)

  /** `handleSaveMarks`. Without a usable subject nothing is sent. Otherwise only
      the visible page of `filtered` is sent; if the backend accepts it, the sent
      values become the saved marks, pending edits are cleared and the grid returns
      to page 1; if not, the grid is unchanged. */
  function SaveMarks(g: Grid, exam: Exam, subject: Option<string>, schedules: seq<Schedule>,
                     filtered: seq<Student>, accepted: bool): (r: SaveOutcome)
    ensures !HasSubject(subject) ==> r.request.None? && r.grid == g
    ensures HasSubject(subject) ==>
              r.request == Some(SavePayload(exam, subject.value, schedules, PageOf(filtered, g.page), g.marks, g.existing))
    ensures HasSubject(subject) ==> r.request.Some? && |r.request.value| == |PageOf(filtered, g.page)|
    ensures HasSubject(subject) ==> forall i :: 0 <= i < |r.request.value| ==>
              r.request.value[i].studentId == PageOf(filtered, g.page)[i].id
    ensures HasSubject(subject) && !accepted ==> r.grid == g
    ensures HasSubject(subject) && accepted ==> r.grid.marks == map[] && r.grid.page == 1
    ensures HasSubject(subject) && accepted ==>
              forall s :: s in PageOf(filtered, g.page) ==>
                var k := MarkKey(exam.id, subject.value, s.id);
                k in r.grid.existing && r.grid.existing[k] == SubmittedMark(g.marks, g.existing, k)
    ensures HasSubject(subject) && accepted ==> r.grid.existing.Keys == g.existing.Keys + RowKeys(r.request.value)
    ensures HasSubject(subject) && accepted ==>
              forall k :: k in g.existing && k !in RowKeys(r.request.value) ==> r.grid.existing[k] == g.existing[k]
  {
    if !HasSubject(subject) then SaveOutcome(g, None)
    else
      var sub := subject.value;
      var page := PageOf(filtered, g.page);
      var payload := SavePayload(exam, sub, schedules, page, g.marks, g.existing);
      if !accepted then SaveOutcome(g, Some(payload))
      else
        var merged := MergeSaved(g.existing, payload);
        assert forall s :: s in page ==>
                 var k := MarkKey(exam.id, sub, s.id);
                 k in merged && merged[k] == SubmittedMark(g.marks, g.existing, k) by {
          forall s | s in page
            ensures var k := MarkKey(exam.id, sub, s.id); k in merged && merged[k] == SubmittedMark(g.marks, g.existing, k)
          {
            var i :| 0 <= i < |page| && page[i] == s;
            LastWriterOf(payload, i);
            var j :| i <= j < |payload| && RowKey(payload[j]) == RowKey(payload[i])
                     && (forall l :: j < l < |payload| ==> RowKey(payload[l]) != RowKey(payload[i]));
          }
        }
        SaveOutcome(Grid(map[], merged, 1), Some(payload))
  }

  /** Some entry at or after `i` writes the same key as entry `i` and is the last one to. */
  lemma {:induction false} LastWriterOf(payload: seq<MarkRow>, i: nat)
    requires i < |payload|
    ensures exists j :: i <= j < |payload| && RowKey(payload[j]) == RowKey(payload[i])
              && (forall l :: j < l < |payload| ==> RowKey(payload[l]) != RowKey(payload[i]))
    decreases |payload| - i
  {
    if exists l :: i < l < |payload| && RowKey(payload[l]) == RowKey(payload[i]) {
      var l :| i < l < |payload| && RowKey(payload[l]) == RowKey(payload[i]);
      LastWriterOf(payload, l);
      var j :| l <= j < |payload| && RowKey(payload[j]) == RowKey(payload[l])
               && (forall m :: j < m < |payload| ==> RowKey(payload[m]) != RowKey(payload[l]));
      assert i <= j && RowKey(payload[j]) == RowKey(payload[i]);
    } else {
      assert forall l :: i < l < |payload| ==> RowKey(payload[l]) != RowKey(payload[i]);
    }
  }

  /** The page-scoped save loses edits made on other pages: after a successful save
      from another page, such a student's saved mark is what it was before and the
      pending edit is gone. */
  lemma OffPageEditsAreDropped(g: Grid, exam: Exam, subject: string, schedules: seq<Schedule>,
                               filtered: seq<Student>, s: Student)
    requires s in filtered && forall t :: t in PageOf(filtered, g.page) ==> t.id != s.id
    requires subject != "" && MarkKey(exam.id, subject, s.id) in g.marks
    ensures var r := SaveMarks(g, exam, Some(subject), schedules, filtered, true).grid;
            var k := MarkKey(exam.id, subject, s.id);
            && k !in r.marks
            && (k in g.existing <==> k in r.existing)
            && (k in g.existing ==> r.existing[k] == g.existing[k])
  {
    var k := MarkKey(exam.id, subject, s.id);
    var page := PageOf(filtered, g.page);
    var payload := SaveMarks(g, exam, Some(subject), schedules, filtered, true).request.value;
    forall i | 0 <= i < |payload| ensures RowKey(payload[i]) != k {
      assert payload[i].studentId == page[i].id;
      assert page[i] in page;
      MarkKeyInjective(exam.id, subject, payload[i].studentId, s.id);
    }
  }
}

=== FILE: numerals.dfy ===
/** Decimal numerals as JavaScript produces and reads them: `Number.prototype.toString()`
    for integers, `String.prototype.padStart` and `parseInt(s, 10)`. */
module Numerals {
  import opened Wrappers
  import Text

  predicate IsDigit(c: char)
  {
    '0' <= c <= '9'
  }

  predicate AllDigits(s: string)
  {
    forall i :: 0 <= i < |s| ==> IsDigit(s[i])
  }

  function DigitChar(d: nat): (c: char)
    requires d < 10
    ensures IsDigit(c)
  {
    ('0' as int + d) as char
  }

  function DigitOf(c: char): nat
    requires IsDigit(c)
  {
    c as int - '0' as int
  }

  function Pow10(k: nat): (p: nat)
    ensures p >= 1
  {
    if k == 0 then 1 else 10 * Pow10(k - 1)
  }

  /** The value of a string of decimal digits, most significant digit first. */
  function DigitsValue(s: string): nat
    requires AllDigits(s)
    decreases |s|
  {
    if s == [] then 0
    else DigitOf(s[0]) * Pow10(|s| - 1) + DigitsValue(s[1..])
  }

  /** `n.toString()` for a non-negative integer: no leading zeros. */
  function NatToString(n: nat): (s: string)
    decreases n
  {
    if n < 10 then [DigitChar(n)] else NatToString(n / 10) + [DigitChar(n % 10)]
  }

  /** `n.toString()` for any integer. */
  function IntToString(n: int): string
  {
    if n < 0 then "-" + NatToString(-n) else NatToString(n)
  }

  function Repeat(c: char, k: nat): (r: string)
    ensures |r| == k
    ensures forall i :: 0 <= i < k ==> r[i] == c
  {
    seq(k, _ => c)
  }

  /** `s.padStart(width, fill)` for a one-character `fill`. */
  function PadStart(s: string, width: nat, fill: char): (r: string)
    ensures |r| == if |s| >= width then |s| else width
    ensures r[|r| - |s|..] == s
    ensures forall i :: 0 <= i < |r| - |s| ==> r[i] == fill
  {
    if |s| >= width then s else Repeat(fill, width - |s|) + s
  }

  /** The longest prefix of `s` made of digits. */
  function LeadingDigits(s: string): (d: string)
    ensures AllDigits(d) && |d| <= |s| && d == s[..|d|]
    ensures |d| < |s| ==> !IsDigit(s[|d|])
    decreases |s|
  {
    if s != [] && IsDigit(s[0]) then [s[0]] + LeadingDigits(s[1..]) else []
  }

  /** `parseInt(s, 10)`: leading white space is skipped, one optional sign is read,
      then the longest run of digits; with no digit the result is NaN (`None`). */
  function ParseInt(s: string): (r: Option<int>)
  {
    var t := Text.TrimStart(s);
    var negative := t != [] && t[0] == '-';
    var rest := if t != [] && (t[0] == '-' || t[0] == '+') then t[1..] else t;
    var d := LeadingDigits(rest);
    var v: int := if d == [] then 0 else DigitsValue(d);
    if d == [] then None
    else if negative then Some(-v)
    else Some(v)
  }

  lemma {:induction false} DigitsValueAppend(s: string, c: char)
    requires AllDigits(s) && IsDigit(c)
    ensures AllDigits(s + [c])
    ensures DigitsValue(s + [c]) == DigitsValue(s) * 10 + DigitOf(c)
    decreases |s|
  {
    if s != [] {
      var t := s + [c];
      assert t[0] == s[0] && t[1..] == s[1..] + [c];
      DigitsValueAppend(s[1..], c);
      var a, p, rest := DigitOf(s[0]), Pow10(|s| - 1), DigitsValue(s[1..]);
      assert DigitsValue(t) == a * Pow10(|s|) + (rest * 10 + DigitOf(c));
      assert Pow10(|s|) == 10 * p;
      ShiftDigit(a, p, rest, DigitOf(c));
    }
  }

  lemma ShiftDigit(a: int, p: int, rest: int, d: int)
    ensures a * (10 * p) + (rest * 10 + d) == (a * p + rest) * 10 + d
  {
  }

  /** The rendering of a natural number is a digit string worth that number. */
  lemma {:induction false} NatToStringValue(n: nat)
    ensures AllDigits(NatToString(n)) && |NatToString(n)| >= 1
    ensures DigitsValue(NatToString(n)) == n
    decreases n
  {
    if n >= 10 {
      NatToStringValue(n / 10);
      DigitsValueAppend(NatToString(n / 10), DigitChar(n % 10));
    }
  }

  /** Below 10^k, a rendering has at most k digits. */
  lemma {:induction false} NatToStringLength(n: nat, k: nat)
    requires k >= 1 && n < Pow10(k)
    ensures |NatToString(n)| <= k
    decreases n
  {
    if n >= 10 {
      NatToStringLength(n / 10, k - 1);
    }
  }

  /** Leading zeros do not change a digit string's value. */
  lemma {:induction false} LeadingZerosValue(k: nat, s: string)
    requires AllDigits(s)
    ensures AllDigits(Repeat('0', k) + s)
    ensures DigitsValue(Repeat('0', k) + s) == DigitsValue(s)
    decreases k
  {
    var z := Repeat('0', k) + s;
    if k == 0 {
      assert z == s;
    } else {
      assert z[1..] == Repeat('0', k - 1) + s;
      LeadingZerosValue(k - 1, s);
      assert DigitOf(z[0]) == 0;
    }
  }

  /** A k-digit string is worth less than 10^k. */
  lemma {:induction false} DigitsValueBound(s: string)
    requires AllDigits(s)
    ensures DigitsValue(s) < Pow10(|s|)
    decreases |s|
  {
    if s != [] {
      DigitsValueBound(s[1..]);
      var d := DigitOf(s[0]);
      var p := Pow10(|s| - 1);
      assert d * p <= 9 * p by { MulMono(d, 9, p); }
    }
  }

  lemma MulMono(a: nat, b: nat, p: nat)
    requires a <= b
    ensures a * p <= b * p
  {
  }

  /** For digit strings of equal length, the default string order is numeric order. */
  lemma {:induction false} EqualLengthDigitOrder(x: string, y: string)
    requires AllDigits(x) && AllDigits(y) && |x| == |y|
    ensures Text.StrLess(x, y) <==> DigitsValue(x) < DigitsValue(y)
    decreases |x|
  {
    if x != [] {
      if x[0] < y[0] {
        FirstDigitDecides(x, y);
      } else if y[0] < x[0] {
        FirstDigitDecides(y, x);
      } else {
        EqualLengthDigitOrder(x[1..], y[1..]);
        var p := Pow10(|x| - 1);
        assert DigitsValue(x) == DigitOf(x[0]) * p + DigitsValue(x[1..]);
        assert DigitsValue(y) == DigitOf(x[0]) * p + DigitsValue(y[1..]);
      }
    }
  }

  /** Between equal-length digit strings, a smaller first digit means a smaller value. */
  lemma FirstDigitDecides(x: string, y: string)
    requires AllDigits(x) && AllDigits(y) && |x| == |y| && x != []
    requires x[0] < y[0]
    ensures DigitsValue(x) < DigitsValue(y)
  {
    var p := Pow10(|x| - 1);
    var dx, dy := DigitOf(x[0]), DigitOf(y[0]);
    DigitsValueBound(x[1..]);
    assert DigitsValue(x) == dx * p + DigitsValue(x[1..]);
    assert DigitsValue(y) == dy * p + DigitsValue(y[1..]);
    LeadingTermDominates(dx, dy, p, DigitsValue(x[1..]), DigitsValue(y[1..]));
  }

  lemma LeadingTermDominates(dx: nat, dy: nat, p: nat, rx: nat, ry: nat)
    requires dx < dy && rx < p
    ensures dx * p + rx < dy * p + ry
  {
    MulMono(dx + 1, dy, p);
    assert (dx + 1) * p == dx * p + p;
  }

  /** Reading back a digit string with nothing around it gives its value. */
  lemma {:induction false} ParseIntDigits(s: string)
    requires AllDigits(s) && s != []
    ensures ParseInt(s) == Some(DigitsValue(s))
  {
    assert !Text.IsSpace(s[0]) && s[0] != '-' && s[0] != '+';
    assert Text.TrimStart(s) == s;
    AllDigitsLeading(s);
  }

  lemma {:induction false} AllDigitsLeading(s: string)
    requires AllDigits(s)
    ensures LeadingDigits(s) == s
    decreases |s|
  {
    if s != [] {
      AllDigitsLeading(s[1..]);
      assert [s[0]] + s[1..] == s;
    }
  }
}

=== FILE: roster.dfy ===
/** The student record every page reads from the portal's student list. Missing
    fields are represented by the empty string. */
module Roster {
  import opened Seqs
  import opened Sorting
  import Text

  datatype Student = Student(
    id: string,
    name: string,
    email: string,
    rollNumber: string,
    classId: string,
    classGradeId: string,
    className: string,
    sectionId: string,
    sectionName: string,
    gender: string,
    academicYear: string,
    status: string
  )

  /** The class select's options, the same on the attendance and the roster pages:
      the distinct non-empty class names of the roster, in string order. */
  function ClassNames(students: seq<Student>): (r: seq<string>)
    ensures StrictlySorted(r, Text.StrLess)
    ensures forall c :: c in r <==> c != "" && exists s :: s in students && s.className == c
  {
    Text.SortedOptions(Map(students, (s: Student) => s.className))
  }
}

=== FILE: seqs.dfy ===
/** Sequence helpers shared by every page: order-preserving filtering, first-match
    search, concatenation of a sequence of pages, and counting. */
module Seqs {
  import opened Wrappers

  /** `sub` is obtained from `s` by deleting elements, keeping the order of the rest. */
  ghost predicate IsSubseq<T>(sub: seq<T>, s: seq<T>)
    decreases |s|
  {
    || sub == []
    || (&& s != []
        && ((sub[0] == s[0] && IsSubseq(sub[1..], s[1..])) || IsSubseq(sub, s[1..])))
  }

  lemma {:induction false} IsSubseqRefl<T>(s: seq<T>)
    ensures IsSubseq(s, s)
    decreases |s|
  {
    if s != [] {
      IsSubseqRefl(s[1..]);
    }
  }

  /** A subsequence of a subsequence is a subsequence: chained filters keep order. */
  lemma {:induction false} IsSubseqTrans<T>(a: seq<T>, b: seq<T>, c: seq<T>)
    requires IsSubseq(a, b) && IsSubseq(b, c)
    ensures IsSubseq(a, c)
    decreases |c|
  {
    if a != [] {
      if IsSubseq(b, c[1..]) {
        IsSubseqTrans(a, b, c[1..]);
      } else if a[0] == b[0] && IsSubseq(a[1..], b[1..]) {
        IsSubseqTrans(a[1..], b[1..], c[1..]);
      } else {
        IsSubseqTrans(a, b[1..], c[1..]);
      }
    }
  }

  /** Array.prototype.filter: the elements of `s` that satisfy `p`, in order, each
      as often as it occurs in `s`. */
  function Filter<T(!new)>(s: seq<T>, p: T -> bool): (r: seq<T>)
    ensures |r| <= |s|
    ensures forall x :: x in r <==> x in s && p(x)
    ensures forall x :: multiset(r)[x] == if p(x) then multiset(s)[x] else 0
    ensures IsSubseq(r, s)
    decreases |s|
  {
    if s == [] then []
    else
      assert s == [s[0]] + s[1..];
      if p(s[0]) then [s[0]] + Filter(s[1..], p)
      else Filter(s[1..], p)
  }

  /** `if (active) s = s.filter(p)`: a filter step that only applies when its input
      control is set. */
  function FilterWhen<T(!new)>(s: seq<T>, active: bool, p: T -> bool): (r: seq<T>)
    ensures IsSubseq(r, s)
    ensures forall x :: x in r <==> x in s && (active ==> p(x))
    ensures forall x :: multiset(r)[x] == if !active || p(x) then multiset(s)[x] else 0
  {
    IsSubseqRefl(s);
    if active then Filter(s, p) else s
  }

  /** A subsequence holds each element at most as often as the sequence does. */
  lemma {:induction false} IsSubseqCounts<T>(r: seq<T>, s: seq<T>)
    requires IsSubseq(r, s)
    ensures multiset(r) <= multiset(s)
    decreases |s|
  {
    if r != [] {
      assert s == [s[0]] + s[1..];
      if r[0] == s[0] && IsSubseq(r[1..], s[1..]) {
        IsSubseqCounts(r[1..], s[1..]);
        assert r == [r[0]] + r[1..];
      } else {
        IsSubseqCounts(r, s[1..]);
      }
    }
  }

  /** The filter contract determines the result: an order-preserving subsequence of
      `s` holding each element as often as `Filter` does is `Filter(s, p)`. */
  lemma {:induction false} FilterUnique<T(!new)>(r: seq<T>, s: seq<T>, p: T -> bool)
    requires IsSubseq(r, s)
    requires forall x :: multiset(r)[x] == if p(x) then multiset(s)[x] else 0
    ensures r == Filter(s, p)
    decreases |s|
  {
    if s != [] {
      var h, t := s[0], s[1..];
      assert s == [h] + t;
      assert multiset(s)[h] == multiset(t)[h] + 1;
      if r == [] {
        forall x ensures multiset(r)[x] == if p(x) then multiset(t)[x] else 0 {
          if p(x) { assert multiset(t)[x] <= multiset(s)[x]; }
        }
        FilterUnique(r, t, p);
      } else if r[0] == h && IsSubseq(r[1..], t) {
        assert r == [h] + r[1..];
        FilterUnique(r[1..], t, p);
      } else {
        IsSubseqCounts(r, t);
        forall x ensures multiset(r)[x] == if p(x) then multiset(t)[x] else 0 {
          if x != h { assert multiset(t)[x] == multiset(s)[x]; }
        }
        FilterUnique(r, t, p);
      }
    }
  }

  /** Array.prototype.findIndex: the index of the first element satisfying `p`. */
  function FindIndex<T>(s: seq<T>, p: T -> bool): (r: Option<nat>)
    ensures r.Some? ==> r.value < |s| && p(s[r.value])
    ensures r.Some? ==> forall j :: 0 <= j < r.value ==> !p(s[j])
    ensures r.None? <==> forall j :: 0 <= j < |s| ==> !p(s[j])
  {
    if s == [] then None
    else if p(s[0]) then Some(0)
    else match FindIndex(s[1..], p)
      case None => None
      case Some(i) => Some(i + 1)
  }

  /** `i` is the position of the first element satisfying `p`. */
  predicate FirstMatch<T>(s: seq<T>, p: T -> bool, i: int)
  {
    0 <= i < |s| && p(s[i]) && forall j :: 0 <= j < i ==> !p(s[j])
  }

  /** Array.prototype.find: the first element satisfying `p`, if any. */
  function Find<T>(s: seq<T>, p: T -> bool): (r: Option<T>)
    ensures r.Some? ==> r.value in s && p(r.value)
    ensures r.Some? ==> exists i :: FirstMatch(s, p, i) && r.value == s[i]
    ensures r.None? <==> forall j :: 0 <= j < |s| ==> !p(s[j])
  {
    match FindIndex(s, p)
    case None => None
    case Some(i) => Some(s[i])
  }

  /** Array.prototype.map: `f` applied to every element, in order. */
  function Map<A(!new), B(!new)>(xs: seq<A>, f: A -> B): (r: seq<B>)
    ensures |r| == |xs|
    ensures forall i :: 0 <= i < |xs| ==> r[i] == f(xs[i])
    ensures forall y :: y in r <==> exists x :: x in xs && f(x) == y
  {
    seq(|xs|, i requires 0 <= i < |xs| => f(xs[i]))
  }

  /** The keys a sequence of writes touches. */
  function WrittenKeys<K, V>(writes: seq<(K, V)>): set<K>
  {
    set i | 0 <= i < |writes| :: writes[i].0
  }

  /** Applies `m[k] = v` for each write in order. */
  function Overwrite<K, V>(m: map<K, V>, writes: seq<(K, V)>): (r: map<K, V>)
    ensures r.Keys == m.Keys + WrittenKeys(writes)
    decreases |writes|
  {
    if writes == [] then m
    else
      var init := writes[..|writes| - 1];
      WrittenKeysSnoc(writes);
      Overwrite(m, init)[writes[|writes| - 1].0 := writes[|writes| - 1].1]
  }

  lemma WrittenKeysSnoc<K, V>(writes: seq<(K, V)>)
    requires writes != []
    ensures WrittenKeys(writes) == WrittenKeys(writes[..|writes| - 1]) + {writes[|writes| - 1].0}
  {
    var init := writes[..|writes| - 1];
    forall k | k in WrittenKeys(writes) ensures k in WrittenKeys(init) + {writes[|writes| - 1].0} {
      var i :| 0 <= i < |writes| && writes[i].0 == k;
      if i < |writes| - 1 { assert init[i].0 == k; }
    }
    forall k | k in WrittenKeys(init) ensures k in WrittenKeys(writes) {
      var i :| 0 <= i < |init| && init[i].0 == k;
      assert writes[i].0 == k;
    }
  }

  /** Keys nobody writes keep their value. */
  lemma {:induction false} OverwriteKeeps<K, V>(m: map<K, V>, writes: seq<(K, V)>, k: K)
    requires k in m && k !in WrittenKeys(writes)
    ensures Overwrite(m, writes)[k] == m[k]
    decreases |writes|
  {
    if writes != [] {
      WrittenKeysSnoc(writes);
      OverwriteKeeps(m, writes[..|writes| - 1], k);
    }
  }

  /** A key holds the value of the last write to it. */
  lemma {:induction false} OverwriteLastWins<K, V>(m: map<K, V>, writes: seq<(K, V)>, i: nat)
    requires i < |writes|
    requires forall j :: i < j < |writes| ==> writes[j].0 != writes[i].0
    ensures Overwrite(m, writes)[writes[i].0] == writes[i].1
    decreases |writes|
  {
    if i < |writes| - 1 {
      var init := writes[..|writes| - 1];
      assert init[i] == writes[i];
      OverwriteLastWins(m, init, i);
      WrittenKeysSnoc(writes);
    }
  }

  /** The two facts above for every key at once. */
  lemma OverwriteFacts<K, V>(m: map<K, V>, writes: seq<(K, V)>)
    ensures forall k :: k in m && k !in WrittenKeys(writes) ==> Overwrite(m, writes)[k] == m[k]
    ensures forall i :: 0 <= i < |writes| && (forall j :: i < j < |writes| ==> writes[j].0 != writes[i].0)
              ==> Overwrite(m, writes)[writes[i].0] == writes[i].1
  {
    forall k | k in m && k !in WrittenKeys(writes) ensures Overwrite(m, writes)[k] == m[k] {
      OverwriteKeeps(m, writes, k);
    }
    forall i | 0 <= i < |writes| && (forall j :: i < j < |writes| ==> writes[j].0 != writes[i].0)
      ensures Overwrite(m, writes)[writes[i].0] == writes[i].1
    {
      OverwriteLastWins(m, writes, i);
    }
  }

  /** Concatenation of a sequence of sequences (`flat()`). */
  function Flatten<T>(ss: seq<seq<T>>): seq<T>
  {
    if ss == [] then [] else Flatten(ss[..|ss| - 1]) + ss[|ss| - 1]
  }

  /** Flattening a sequence with a first element puts that element's items first. */
  lemma {:induction false} FlattenCons<T>(a: seq<T>, ss: seq<seq<T>>)
    ensures Flatten([a] + ss) == a + Flatten(ss)
    decreases |ss|
  {
    if ss != [] {
      var init := ss[..|ss| - 1];
      assert ([a] + ss)[..|ss|] == [a] + init;
      FlattenCons(a, init);
    }
  }

  /** Filtering on `p` and on its negation splits `s` into two parts whose
      lengths add up to `|s|`. */
  lemma {:induction false} PartitionLength<T(!new)>(s: seq<T>, p: T -> bool, q: T -> bool)
    requires forall x :: q(x) == !p(x)
    ensures |Filter(s, p)| + |Filter(s, q)| == |s|
    decreases |s|
  {
    if s != [] {
      PartitionLength(s[1..], p, q);
    }
  }

  /** Three mutually exclusive tests select, together, at most `|s|` elements. */
  lemma {:induction false} ExclusiveCountsBounded<T(!new)>(s: seq<T>, a: T -> bool, b: T -> bool, c: T -> bool)
    requires forall x :: !(a(x) && b(x)) && !(a(x) && c(x)) && !(b(x) && c(x))
    ensures |Filter(s, a)| + |Filter(s, b)| + |Filter(s, c)| <= |s|
    decreases |s|
  {
    if s != [] {
      ExclusiveCountsBounded(s[1..], a, b, c);
    }
  }

  /** A filter whose test holds everywhere on `s` returns `s` itself. */
  lemma {:induction false} FilterAll<T(!new)>(s: seq<T>, p: T -> bool)
    requires forall i :: 0 <= i < |s| ==> p(s[i])
    ensures Filter(s, p) == s
    decreases |s|
  {
    if s != [] {
      FilterAll(s[1..], p);
    }
  }
}

=== FILE: sorting.dfy ===
/** Sorting with duplicate removal under a strict total order: the shape of
    JavaScript's `[...new Set(xs)].sort()` used for every option list in the portal. */
module Sorting {

  /** `less` is irreflexive, transitive and relates any two distinct values. */
  ghost predicate StrictTotalOrder<T(!new)>(less: (T, T) -> bool)
  {
    && (forall a :: !less(a, a))
    && (forall a, b, c :: less(a, b) && less(b, c) ==> less(a, c))
    && (forall a, b :: a != b ==> less(a, b) || less(b, a))
  }

  /** Every earlier element is strictly below every later one (so no duplicates). */
  ghost predicate StrictlySorted<T>(xs: seq<T>, less: (T, T) -> bool)
  {
    forall i, j :: 0 <= i < j < |xs| ==> less(xs[i], xs[j])
  }

  /** Inserts `x` into the strictly sorted `xs`, unless it is already there. */
  function Insert<T(==,!new)>(xs: seq<T>, x: T, less: (T, T) -> bool): (r: seq<T>)
    requires StrictTotalOrder(less)
    requires StrictlySorted(xs, less)
    ensures StrictlySorted(r, less)
    ensures forall y :: y in r <==> y in xs || y == x
    decreases |xs|
  {
    if xs == [] then [x]
    else if x == xs[0] then xs
    else if less(x, xs[0]) then
      assert forall j :: 0 <= j < |xs| ==> less(x, xs[j]) by {
        forall j | 0 <= j < |xs| ensures less(x, xs[j]) {
          if j > 0 { assert less(xs[0], xs[j]); }
        }
      }
      [x] + xs
    else
      var rest := Insert(xs[1..], x, less);
      assert forall y :: y in rest ==> less(xs[0], y) by {
        forall y | y in rest ensures less(xs[0], y) {
          if y != x {
            var j :| 0 <= j < |xs[1..]| && xs[1..][j] == y;
            assert xs[j + 1] == y;
          }
        }
      }
      [xs[0]] + rest
  }

  /** The distinct elements of `xs`, in ascending order. */
  function SortDistinct<T(==,!new)>(xs: seq<T>, less: (T, T) -> bool): (r: seq<T>)
    requires StrictTotalOrder(less)
    ensures StrictlySorted(r, less)
    ensures forall y :: y in r <==> y in xs
    ensures |r| <= |xs|
    decreases |xs|
  {
    if xs == [] then []
    else
      var init := SortDistinct(xs[..|xs| - 1], less);
      assert xs == xs[..|xs| - 1] + [xs[|xs| - 1]];
      var r := Insert(init, xs[|xs| - 1], less);
      DistinctLength(r, less, xs);
      r
  }

  /** A strictly sorted sequence is no longer than any sequence holding all its elements. */
  lemma {:induction false} DistinctLength<T(!new)>(r: seq<T>, less: (T, T) -> bool, xs: seq<T>)
    requires StrictTotalOrder(less)
    requires StrictlySorted(r, less)
    requires forall y :: y in r ==> y in xs
    ensures |r| <= |xs|
  {
    var rs := set i | 0 <= i < |r| :: r[i];
    var xset := set i | 0 <= i < |xs| :: xs[i];
    forall i | 0 <= i < |r| ensures r[i] in xset {
      assert r[i] in r;
      var j :| 0 <= j < |xs| && xs[j] == r[i];
    }
    InjectiveCard(r, less);
    CardBound(xs);
    assert |rs| <= |xset| by { SubsetCard(rs, xset); }
  }

  lemma SubsetCard<T>(a: set<T>, b: set<T>)
    requires a <= b
    ensures |a| <= |b|
  {
    if a != {} {
      var x :| x in a;
      SubsetCard(a - {x}, b - {x});
    }
  }

  /** A strictly sorted sequence has as many distinct elements as it has positions. */
  lemma {:induction false} InjectiveCard<T(!new)>(r: seq<T>, less: (T, T) -> bool)
    requires StrictTotalOrder(less)
    requires StrictlySorted(r, less)
    ensures |set i | 0 <= i < |r| :: r[i]| == |r|
    decreases |r|
  {
    if r != [] {
      var init := r[..|r| - 1];
      InjectiveCard(init, less);
      var s0 := set i | 0 <= i < |init| :: init[i];
      var s1 := set i | 0 <= i < |r| :: r[i];
      assert s1 == s0 + {r[|r| - 1]};
      forall i | 0 <= i < |init| ensures init[i] != r[|r| - 1] {
        assert less(r[i], r[|r| - 1]);
      }
    }
  }

  /** A sequence has at most as many distinct elements as positions. */
  lemma {:induction false} CardBound<T>(xs: seq<T>)
    ensures |set i | 0 <= i < |xs| :: xs[i]| <= |xs|
    decreases |xs|
  {
    if xs != [] {
      var init := xs[..|xs| - 1];
      CardBound(init);
      var s0 := set i | 0 <= i < |init| :: init[i];
      var s1 := set i | 0 <= i < |xs| :: xs[i];
      assert s1 <= s0 + {xs[|xs| - 1]};
      SubsetCard(s1, s0 + {xs[|xs| - 1]});
    }
  }
}

=== FILE: staff.dfy ===
/** The staff schema: the pre-save hook that assigns `EMP-YYYY-NNNNN` employee IDs,
    the enum-restricted fields, and the leave-quota defaults. */
module Staff {
  import opened Wrappers
  import Text
  import opened Numerals

  /** Width the serial is zero-padded to. */
  const SerialWidth: nat := 5

  /** The serial the hook computes: an integer, or NaN when the previous ID's third
      dash-separated piece does not start with a number. */
  datatype Serial = Serial(n: int) | NaN

  /** `nextSerial.toString()`. */
  function SerialText(s: Serial): string
  {
    match s
    case Serial(n) => IntToString(n)
    case NaN => "NaN"
  }

  /** The padded serial piece of an ID. */
  function PaddedSerial(s: Serial): string
  {
    PadStart(SerialText(s), SerialWidth, '0')
  }

  /** `EMP-${year}-${serial}`. */
  function FormatEmployeeId(year: nat, s: Serial): string
  {
    "EMP-" + NatToString(year) + "-" + PaddedSerial(s)
  }

  /** `parseInt(id.split("-")[2], 10)`; a missing third piece reads as NaN (`None`). */
  function ParseSerial(id: string): Option<int>
  {
    var parts := Text.Split(id, '-');
    if |parts| < 3 then None else ParseInt(parts[2])
  }

  /** The serial after the last ID issued this year: 1 when there is none, otherwise
      the last one's serial plus one (NaN stays NaN). */
  function NextSerial(last: Option<string>): Serial
  {
    match last
    case None => Serial(1)
    case Some(id) =>
      match ParseSerial(id)
      case Some(v) => Serial(v + 1)
      case None => NaN
  }

  /** The `pre("save")` hook: the employee ID after saving a document. `year` is the
      current calendar year and `last` the employee ID of the latest staff member
      whose ID mentions this year, if any. A generated ID is "EMP", the year and the
      serial zero-padded to five characters, joined by dashes. */
  function PreSave(isNew: bool, employeeId: string, year: nat, last: Option<string>): (r: string)
    ensures !isNew || employeeId != "" ==> r == employeeId
    ensures isNew && employeeId == "" ==>
              Text.Split(r, '-') == ["EMP", NatToString(year), PaddedSerial(NextSerial(last))]
    ensures isNew && employeeId == "" ==> |PaddedSerial(NextSerial(last))| >= SerialWidth
    ensures isNew && employeeId == "" && NextSerial(last).Serial? && NextSerial(last).n < 100000 ==>
              |PaddedSerial(NextSerial(last))| == SerialWidth
    ensures isNew && employeeId == "" && last.None? ==> ParseSerial(r) == Some(1)
    ensures isNew && employeeId == "" && last.Some? && ParseSerial(last.value).Some? ==>
              ParseSerial(r) == Some(ParseSerial(last.value).value + 1)
  {
    if !isNew || employeeId != "" then employeeId
    else
      var s := NextSerial(last);
      GeneratedIdShape(year, last);
      FormatEmployeeId(year, s)
  }

  /** A serial read back out of any ID is never negative: the third dash-separated
      piece holds no dash, so `parseInt` never sees a minus sign. */
  lemma ParseSerialNonNegative(id: string)
    ensures ParseSerial(id).Some? ==> ParseSerial(id).value >= 0
  {
    var parts := Text.Split(id, '-');
    if |parts| >= 3 {
      var t := Text.TrimStart(parts[2]);
      Text.TrimStartSuffix(parts[2]);
      Text.SplitPiecesFree(id, '-');
      assert '-' !in parts[2];
      if t != [] {
        assert t[0] == parts[2][|parts[2]| - |t|];
      }
    }
  }

  /** The next serial is NaN or at least 1. */
  lemma NextSerialPositive(last: Option<string>)
    ensures NextSerial(last).Serial? ==> NextSerial(last).n >= 1
  {
    if last.Some? {
      ParseSerialNonNegative(last.value);
    }
  }

  /** The facts `PreSave` promises about a generated ID, in one place. */
  lemma GeneratedIdShape(year: nat, last: Option<string>)
    ensures Text.Split(FormatEmployeeId(year, NextSerial(last)), '-')
              == ["EMP", NatToString(year), PaddedSerial(NextSerial(last))]
    ensures |PaddedSerial(NextSerial(last))| >= SerialWidth
    ensures NextSerial(last).Serial? && NextSerial(last).n < 100000 ==>
              |PaddedSerial(NextSerial(last))| == SerialWidth
    ensures last.None? ==> ParseSerial(FormatEmployeeId(year, NextSerial(last))) == Some(1)
    ensures last.Some? && ParseSerial(last.value).Some? ==>
              ParseSerial(FormatEmployeeId(year, NextSerial(last))) == Some(ParseSerial(last.value).value + 1)
  {
    var s := NextSerial(last);
    NextSerialPositive(last);
    if s.Serial? {
      var p := PaddedSerial(s);
      PaddedSerialValue(s.n);
      assert '-' !in p by {
        forall i | 0 <= i < |p| ensures p[i] != '-' { assert IsDigit(p[i]); }
      }
      SerialRoundTrip(year, s.n);
      if s.n < 100000 {
        PaddedSerialWidth(s.n);
      }
    } else {
      assert PaddedSerial(s) == "00NaN" by {
        assert Repeat('0', 2) == "00";
      }
    }
    SplitEmployeeId(year, s);
  }

  /** The padded rendering of a natural serial is a digit string worth the serial. */
  lemma {:induction false} PaddedSerialValue(n: nat)
    ensures AllDigits(PaddedSerial(Serial(n))) && PaddedSerial(Serial(n)) != []
    ensures DigitsValue(PaddedSerial(Serial(n))) == n
  {
    var t := NatToString(n);
    NatToStringValue(n);
    if |t| >= SerialWidth {
      assert PaddedSerial(Serial(n)) == t;
    } else {
      assert PaddedSerial(Serial(n)) == Repeat('0', SerialWidth - |t|) + t;
      LeadingZerosValue(SerialWidth - |t|, t);
    }
  }

  /** An ID splits into "EMP", the year and the padded serial. */
  lemma SplitEmployeeId(year: nat, s: Serial)
    requires '-' !in PaddedSerial(s)
    ensures Text.Split(FormatEmployeeId(year, s), '-') == ["EMP", NatToString(year), PaddedSerial(s)]
  {
    var y := NatToString(year);
    var p := PaddedSerial(s);
    NatToStringValue(year);
    assert '-' !in y by {
      forall i | 0 <= i < |y| ensures y[i] != '-' { assert IsDigit(y[i]); }
    }
    assert "EMP-" == "EMP" + ['-'];
    assert FormatEmployeeId(year, s) == "EMP" + ['-'] + y + ['-'] + p;
    Text.SplitThree("EMP", y, p, '-');
  }

  /** Round trip: reading the serial back out of a generated ID gives the serial. */
  lemma {:induction false} SerialRoundTrip(year: nat, n: nat)
    ensures ParseSerial(FormatEmployeeId(year, Serial(n))) == Some(n)
  {
    var p := PaddedSerial(Serial(n));
    PaddedSerialValue(n);
    assert '-' !in p by {
      forall i | 0 <= i < |p| ensures p[i] != '-' { assert IsDigit(p[i]); }
    }
    SplitEmployeeId(year, Serial(n));
    ParseIntDigits(p);
  }

  /** After an ID with serial n has been issued, the next one gets serial n + 1. */
  lemma NextSerialFollowsLast(year: nat, n: nat)
    ensures NextSerial(Some(FormatEmployeeId(year, Serial(n)))) == Serial(n + 1)
  {
    SerialRoundTrip(year, n);
  }

  /** Below 100000 the padded serial has exactly five digits. */
  lemma {:induction false} PaddedSerialWidth(n: nat)
    requires n < 100000
    ensures |PaddedSerial(Serial(n))| == SerialWidth
  {
    NatToStringLength(n, 5);
  }

  /** For serials below 100000, the default string order of same-year IDs is the
      numeric order of their serials, so sorting IDs descending puts the largest
      serial first. */
  lemma {:induction false} IdOrderMatchesSerialOrder(year: nat, a: nat, b: nat)
    requires a < 100000 && b < 100000
    ensures Text.StrLess(FormatEmployeeId(year, Serial(a)), FormatEmployeeId(year, Serial(b))) <==> a < b
  {
    var prefix := "EMP-" + NatToString(year) + "-";
    var pa, pb := PaddedSerial(Serial(a)), PaddedSerial(Serial(b));
    PaddedSerialWidth(a);
    PaddedSerialWidth(b);
    PaddedSerialValue(a);
    PaddedSerialValue(b);
    Text.StrLessCommonPrefix(prefix, pa, pb);
    EqualLengthDigitOrder(pa, pb);
  }

  /** The ID a descending string sort puts first carries the largest serial, as long
      as every serial is below 100000. */
  lemma GreatestIdHasGreatestSerial(year: nat, serials: seq<nat>, m: nat)
    requires forall i :: 0 <= i < |serials| ==> serials[i] < 100000
    requires m < |serials|
    requires forall i :: 0 <= i < |serials| ==>
               !Text.StrLess(FormatEmployeeId(year, Serial(serials[m])), FormatEmployeeId(year, Serial(serials[i])))
    ensures forall i :: 0 <= i < |serials| ==> serials[i] <= serials[m]
  {
    forall i | 0 <= i < |serials| ensures serials[i] <= serials[m] {
      IdOrderMatchesSerialOrder(year, serials[m], serials[i]);
    }
  }

  /** At six digits the string order stops following the serials: serial 100000
      sorts below serial 99999. */
  lemma IdOrderBreaksAtSixDigits(year: nat)
    ensures Text.StrLess(FormatEmployeeId(year, Serial(100000)), FormatEmployeeId(year, Serial(99999)))
  {
    var prefix := "EMP-" + NatToString(year) + "-";
    assert NatToString(1) == "1";
    assert NatToString(10) == "10";
    assert NatToString(100) == "100";
    assert NatToString(1000) == "1000";
    assert NatToString(10000) == "10000";
    assert NatToString(100000) == "100000";
    assert NatToString(9) == "9";
    assert NatToString(99) == "99";
    assert NatToString(999) == "999";
    assert NatToString(9999) == "9999";
    assert NatToString(99999) == "99999";
    assert PaddedSerial(Serial(100000)) == "100000";
    assert PaddedSerial(Serial(99999)) == "99999";
    Text.StrLessCommonPrefix(prefix, "100000", "99999");
  }

  /** The ID a descending sort on `employeeId` puts first: the greatest in the
      default string order. */
  function GreatestId(ids: seq<string>): (r: Option<string>)
    ensures r.None? <==> ids == []
    ensures r.Some? ==> r.value in ids && forall id :: id in ids ==> !Text.StrLess(r.value, id)
    decreases |ids|
  {
    if ids == [] then None
    else
      match GreatestId(ids[1..])
      case None =>
        assert ids == [ids[0]];
        Text.StrLessIrreflexive(ids[0]);
        Some(ids[0])
      case Some(m) =>
        if Text.StrLess(m, ids[0]) then
          assert forall id :: id in ids[1..] ==> !Text.StrLess(ids[0], id) by {
            forall id | id in ids[1..] ensures !Text.StrLess(ids[0], id) {
              if Text.StrLess(ids[0], id) { Text.StrLessTransitive(m, ids[0], id); }
            }
          }
          Text.StrLessIrreflexive(ids[0]);
          Some(ids[0])
        else Some(m)
  }

  /** Of two IDs, the string-greater one is picked. */
  lemma GreatestOfTwo(a: string, b: string)
    requires Text.StrLess(b, a)
    ensures GreatestId([a, b]) == Some(a)
  {
    assert [a, b][1..] == [b];
    assert [b][1..] == [];
  }

  /** After the ID with serial n, the hook issues the ID with serial n + 1. */
  lemma PreSaveAfter(year: nat, n: nat)
    ensures PreSave(true, "", year, Some(FormatEmployeeId(year, Serial(n)))) == FormatEmployeeId(year, Serial(n + 1))
  {
    NextSerialFollowsLast(year, n);
  }

  /** As written, once a year has reached serial 100000 the hook picks the ID with
      serial 99999 as the last one and issues serial 100000 a second time. */
  lemma SixDigitSerialRepeats(year: nat)
    ensures var ids := [FormatEmployeeId(year, Serial(99999)), FormatEmployeeId(year, Serial(100000))];
            PreSave(true, "", year, GreatestId(ids)) == ids[1]
  {
    IdOrderBreaksAtSixDigits(year);
    GreatestOfTwo(FormatEmployeeId(year, Serial(99999)), FormatEmployeeId(year, Serial(100000)));
    PreSaveAfter(year, 99999);
  }

  /** The largest serial among the IDs that parse (0 when none does). */
  function MaxSerial(ids: seq<string>): (m: nat)
    ensures forall id :: id in ids && ParseSerial(id).Some? ==> ParseSerial(id).value <= m
    ensures m == 0 || exists id :: id in ids && ParseSerial(id) == Some(m)
    decreases |ids|
  {
    if ids == [] then 0
    else
      var rest := MaxSerial(ids[1..]);
      match ParseSerial(ids[0])
      case Some(v) => if v > rest then v else rest
      case None => rest
  }

  /** The hook with the serial taken as one more than the numeric maximum of the
      year's IDs, instead of one more than the serial of the string-greatest ID: the
      generated ID is never one already issued. */
  function PreSaveFresh(isNew: bool, employeeId: string, year: nat, ids: seq<string>): (r: string)
    ensures !isNew || employeeId != "" ==> r == employeeId
    ensures isNew && employeeId == "" ==> ParseSerial(r) == Some(MaxSerial(ids) + 1)
  {
    if !isNew || employeeId != "" then employeeId
    else
      SerialRoundTrip(year, MaxSerial(ids) + 1);
      FormatEmployeeId(year, Serial(MaxSerial(ids) + 1))
  }

  /** A generated ID is never one already issued. */
  lemma PreSaveFreshIsNew(isNew: bool, employeeId: string, year: nat, ids: seq<string>)
    ensures isNew && employeeId == "" ==> PreSaveFresh(isNew, employeeId, year, ids) !in ids
  {
    if isNew && employeeId == "" {
      AboveMaxIsFresh(ids, PreSaveFresh(isNew, employeeId, year, ids), MaxSerial(ids) + 1);
    }
  }

  /** An ID whose serial exceeds the maximum is not among the IDs. */
  lemma AboveMaxIsFresh(ids: seq<string>, r: string, n: int)
    requires ParseSerial(r) == Some(n) && n > MaxSerial(ids)
    ensures r !in ids
  {
    forall id | id in ids ensures id != r {
      assert ParseSerial(id).Some? ==> ParseSerial(id).value <= MaxSerial(ids);
    }
  }

  /** The maximum is attained by the given ID when no parsed serial exceeds it. */
  lemma MaxSerialIs(ids: seq<string>, m: nat, v: nat)
    requires m < |ids| && ParseSerial(ids[m]) == Some(v)
    requires forall id :: id in ids && ParseSerial(id).Some? ==> ParseSerial(id).value <= v
    ensures MaxSerial(ids) == v
  {
    var max := MaxSerial(ids);
    assert ids[m] in ids;
    assert v <= max;
    if max != 0 {
      var id :| id in ids && ParseSerial(id) == Some(max);
      assert max <= v;
    }
  }

  /** Below six digits the string-greatest ID is one carrying the largest serial. */
  lemma GreatestIsMax(year: nat, serials: seq<nat>, ids: seq<string>) returns (m: nat)
    requires serials != [] && |ids| == |serials|
    requires forall i :: 0 <= i < |serials| ==> serials[i] < 100000 && ids[i] == FormatEmployeeId(year, Serial(serials[i]))
    ensures m < |ids| && GreatestId(ids) == Some(ids[m]) && MaxSerial(ids) == serials[m]
  {
    var g := GreatestId(ids).value;
    m :| 0 <= m < |ids| && ids[m] == g;
    forall id | id in ids && ParseSerial(id).Some? ensures ParseSerial(id).value <= serials[m] {
      var i :| 0 <= i < |ids| && ids[i] == id;
      assert !Text.StrLess(ids[m], ids[i]);
      IdOrderMatchesSerialOrder(year, serials[m], serials[i]);
      SerialRoundTrip(year, serials[i]);
    }
    SerialRoundTrip(year, serials[m]);
    MaxSerialIs(ids, m, serials[m]);
  }

  /** Below six digits the two choices agree: the as-written hook continues from
      the largest serial issued, as the corrected one does. */
  lemma FreshAgreesBelowSixDigits(year: nat, serials: seq<nat>, ids: seq<string>)
    requires serials != [] && |ids| == |serials|
    requires forall i :: 0 <= i < |serials| ==> serials[i] < 100000 && ids[i] == FormatEmployeeId(year, Serial(serials[i]))
    ensures NextSerial(GreatestId(ids)) == Serial(MaxSerial(ids) + 1)
  {
    var m := GreatestIsMax(year, serials, ids);
    SerialRoundTrip(year, serials[m]);
  }

  /** The six enum-restricted fields of the schema. */
  datatype EnumField = Gender | MaritalStatus | Department | Designation | EmploymentType | WorkShiftTiming

  /** The values each enum field accepts. */
  function AllowedValues(f: EnumField): seq<string>
  {
    match f
    case Gender => ["Male", "Female"]
    case MaritalStatus => ["Single", "Married", "Divorced", "Widowed"]
    case Department => ["Teaching", "Non-Teaching", "Administration", "Accounts", "IT", "Library", "Lab Assistant"]
    case Designation => ["Teacher", "Principal", "Clerk", "Accountant", "Librarian", "Lab Assistant"]
    case EmploymentType => ["Full-time", "Part-time", "Contract"]
    case WorkShiftTiming => ["Morning (8AM-2PM)", "Afternoon (12PM-6PM)", "Evening (4PM-10PM)"]
  }

  datatype SchemaError = Required(field: EnumField) | NotInEnum(field: EnumField, value: string)

  /** Validation of one of the enum fields, all of which are also required: an
      absent or empty value fails `required`, any other value outside the list fails
      `enum`. */
  function ValidateEnum(f: EnumField, v: Option<string>): (r: Result<string, SchemaError>)
    ensures r.Ok? <==> v.Some? && v.value in AllowedValues(f)
    ensures r.Ok? ==> r.value == v.value
    ensures r == Err(Required(f)) <==> v.None? || v.value == ""
  {
    match v
    case None => Err(Required(f))
    case Some(s) =>
      if s == "" then Err(Required(f))
      else if s in AllowedValues(f) then Ok(s)
      else Err(NotInEnum(f, s))
  }

  const DefaultCasualLeave: int := 12
  const DefaultSickLeave: int := 10
  const DefaultUnpaidLeave: string := "unlimited"

  datatype LeaveQuota = LeaveQuota(casual: int, sick: int, unpaid: string)

  /** The stored leave quota: each absent part takes its schema default. */
  function ApplyLeaveDefaults(casual: Option<int>, sick: Option<int>, unpaid: Option<string>): (q: LeaveQuota)
    ensures casual.Some? ==> q.casual == casual.value
    ensures casual.None? ==> q.casual == 12
    ensures sick.Some? ==> q.sick == sick.value
    ensures sick.None? ==> q.sick == 10
    ensures unpaid.Some? ==> q.unpaid == unpaid.value
    ensures unpaid.None? ==> q.unpaid == "unlimited"
  {
    LeaveQuota(casual.GetOr(DefaultCasualLeave), sick.GetOr(DefaultSickLeave), unpaid.GetOr(DefaultUnpaidLeave))
  }
}

=== FILE: students.dfy ===
/** The student roster page: the search box and four select filters, their option
    lists, and whether any filter is active. */
module Students {
  import opened Seqs
  import opened Sorting
  import Text
  import opened Roster

  /** The search box and the class, year, status and gender selects ("all" = any). */
  datatype Filters = Filters(query: string, className: string, year: string, status: string, gender: string)

  /** A non-empty query matches the name, the email or the class name, ignoring case. */
  predicate MatchesQuery(s: Student, query: string)
  {
    || Text.ContainsIgnoringCase(s.name, query)
    || Text.ContainsIgnoringCase(s.email, query)
    || Text.ContainsIgnoringCase(s.className, query)
  }

  function QueryTest(query: string): Student -> bool
  {
    (s: Student) => MatchesQuery(s, query)
  }

  function ClassTest(c: string): Student -> bool
  {
    (s: Student) => s.className == c
  }

  function YearTest(y: string): Student -> bool
  {
    (s: Student) => s.academicYear == y
  }

  function StatusTest(st: string): Student -> bool
  {
    (s: Student) => s.status == st
  }

  function GenderTest(g: string): Student -> bool
  {
    (s: Student) => s.gender == g
  }

  /** The class and year selects, each applied unless it is "all". */
  predicate MatchesClassYear(s: Student, f: Filters)
  {
    && (f.className == "all" || s.className == f.className)
    && (f.year == "all" || s.academicYear == f.year)
  }

  /** The status and gender selects, each applied unless it is "all". */
  predicate MatchesStatusGender(s: Student, f: Filters)
  {
    && (f.status == "all" || s.status == f.status)
    && (f.gender == "all" || s.gender == f.gender)
  }

  /** The four select filters: class, then year, then status, then gender. */
  predicate MatchesSelects(s: Student, f: Filters)
  {
    MatchesClassYear(s, f) && MatchesStatusGender(s, f)
  }

  /** The class step followed by the year step. */
  function SelectClassYear(students: seq<Student>, f: Filters): (r: seq<Student>)
    ensures IsSubseq(r, students)
    ensures forall s :: s in r <==> s in students && MatchesClassYear(s, f)
    ensures forall s :: multiset(r)[s] == if MatchesClassYear(s, f) then multiset(students)[s] else 0
  {
    var byClass := FilterWhen(students, f.className != "all", ClassTest(f.className));
    var byYear := FilterWhen(byClass, f.year != "all", YearTest(f.year));
    IsSubseqTrans(byYear, byClass, students);
    forall s ensures multiset(byYear)[s] == if MatchesClassYear(s, f) then multiset(students)[s] else 0 {
      assert multiset(byYear)[s] == if f.year == "all" || s.academicYear == f.year then multiset(byClass)[s] else 0;
    }
    byYear
  }

  /** The status step followed by the gender step. */
  function SelectStatusGender(students: seq<Student>, f: Filters): (r: seq<Student>)
    ensures IsSubseq(r, students)
    ensures forall s :: s in r <==> s in students && MatchesStatusGender(s, f)
    ensures forall s :: multiset(r)[s] == if MatchesStatusGender(s, f) then multiset(students)[s] else 0
  {
    var byStatus := FilterWhen(students, f.status != "all", StatusTest(f.status));
    var byGender := FilterWhen(byStatus, f.gender != "all", GenderTest(f.gender));
    IsSubseqTrans(byGender, byStatus, students);
    forall s ensures multiset(byGender)[s] == if MatchesStatusGender(s, f) then multiset(students)[s] else 0 {
      assert multiset(byGender)[s] == if f.gender == "all" || s.gender == f.gender then multiset(byStatus)[s] else 0;
    }
    byGender
  }

  /** The four select steps in the page's order. */
  function SelectStudents(students: seq<Student>, f: Filters): (r: seq<Student>)
    ensures IsSubseq(r, students)
    ensures forall s :: s in r <==> s in students && MatchesSelects(s, f)
    ensures forall s :: multiset(r)[s] == if MatchesSelects(s, f) then multiset(students)[s] else 0
  {
    var classYear := SelectClassYear(students, f);
    var r := SelectStatusGender(classYear, f);
    IsSubseqTrans(r, classYear, students);
    forall s ensures multiset(r)[s] == if MatchesSelects(s, f) then multiset(students)[s] else 0 {
      assert multiset(r)[s] == if MatchesStatusGender(s, f) then multiset(classYear)[s] else 0;
    }
    r
  }

  /** A student passes the query (when one is typed) and every select that is not "all". */
  predicate Shown(s: Student, f: Filters)
  {
    && (f.query == "" || MatchesQuery(s, f.query))
    && (f.className == "all" || s.className == f.className)
    && (f.year == "all" || s.academicYear == f.year)
    && (f.status == "all" || s.status == f.status)
    && (f.gender == "all" || s.gender == f.gender)
  }

  /** The filter effect: the query step when the query is not empty, then each select
      that is not "all", in that order. */
  function FilteredStudents(students: seq<Student>, f: Filters): (r: seq<Student>)
    ensures IsSubseq(r, students)
    ensures forall s :: s in r <==> s in students && Shown(s, f)
    ensures forall s :: multiset(r)[s] == if Shown(s, f) then multiset(students)[s] else 0
  {
    var byQuery := FilterWhen(students, f.query != "", QueryTest(f.query));
    var r := SelectStudents(byQuery, f);
    IsSubseqTrans(r, byQuery, students);
    forall s ensures s in r <==> s in students && Shown(s, f) {
      assert s in r <==> s in byQuery && MatchesSelects(s, f);
    }
    forall s ensures multiset(r)[s] == if Shown(s, f) then multiset(students)[s] else 0 {
      assert multiset(r)[s] == if MatchesSelects(s, f) then multiset(byQuery)[s] else 0;
    }
    r
  }

  /** `uniqueYears`: the distinct non-empty academic years, sorted. */
  function UniqueYears(students: seq<Student>): (r: seq<string>)
    ensures StrictlySorted(r, Text.StrLess)
    ensures forall y :: y in r <==> y != "" && exists s :: s in students && s.academicYear == y
  {
    Text.SortedOptions(Map(students, (s: Student) => s.academicYear))
  }

  /** `hasActiveFilters`. */
  predicate HasActiveFilters(f: Filters)
  {
    f.query != "" || f.className != "all" || f.year != "all" || f.status != "all" || f.gender != "all"
  }

  /** `clearFilters`. */
  function ClearFilters(): (f: Filters)
    ensures !HasActiveFilters(f)
    ensures f.query == ""
  {
    Filters("", "all", "all", "all", "all")
  }

  /** Without an active filter the list is the whole roster, in order. */
  lemma {:induction false} InactiveFiltersShowAll(students: seq<Student>, f: Filters)
    requires !HasActiveFilters(f)
    ensures FilteredStudents(students, f) == students
  {
    FilterWhenInactive(students, QueryTest(f.query));
    FilterWhenInactive(students, ClassTest(f.className));
    FilterWhenInactive(students, YearTest(f.year));
    FilterWhenInactive(students, StatusTest(f.status));
    FilterWhenInactive(students, GenderTest(f.gender));
  }

  /** Conversely, an active filter is one that can hide a student: some roster
      exists that it does not show in full. */
  lemma ActiveFilterCanHide(f: Filters)
    requires HasActiveFilters(f)
    ensures exists students :: FilteredStudents(students, f) != students
  {
    var hidden := Student("", "", "", "", "", "", "", "", "", "", "", "");
    var other := if f.query != "" then hidden else hidden.(className := f.className + "x", academicYear := f.year + "x",
                                                                      status := f.status + "x", gender := f.gender + "x");
    if f.query != "" {
      assert !Text.Contains(Text.ToLower(""), Text.ToLower(f.query));
      assert !MatchesQuery(other, f.query);
    } else if f.className != "all" {
      assert |other.className| != |f.className|;
    } else if f.year != "all" {
      assert |other.academicYear| != |f.year|;
    } else if f.status != "all" {
      assert |other.status| != |f.status|;
    } else {
      assert |other.gender| != |f.gender|;
    }
    assert other !in FilteredStudents([other], f);
  }

  lemma FilterWhenInactive(s: seq<Student>, p: Student -> bool)
    ensures FilterWhen(s, false, p) == s
  {
  }
}

=== FILE: text.dfy ===
/** The JavaScript string operations the pages rely on: case folding, `trim`,
    `includes`, `split`, the default `sort()` order, and the
    "distinct, non-empty, sorted" option lists built from them. */
module Text {
  import opened Seqs
  import opened Sorting

  /** `toLowerCase` on one character (ASCII letters only). */
  function LowerChar(c: char): char
  {
    if 'A' <= c <= 'Z' then (c as int + 32) as char else c
  }

  /** `toUpperCase` on one character (ASCII letters only). */
  function UpperChar(c: char): char
  {
    if 'a' <= c <= 'z' then (c as int - 32) as char else c
  }

  function ToLower(s: string): (r: string)
    ensures |r| == |s|
  {
    seq(|s|, i requires 0 <= i < |s| => LowerChar(s[i]))
  }

  /** `s.charAt(0).toUpperCase() + s.slice(1)`. */
  function UpperFirst(s: string): (r: string)
    ensures |r| == |s|
    ensures s != [] ==> r[0] == UpperChar(s[0]) && r[1..] == s[1..]
  {
    if s == [] then [] else [UpperChar(s[0])] + s[1..]
  }

  /** The characters `String.prototype.trim` removes: ECMAScript WhiteSpace
      (tab, vertical tab, form feed, space, no-break space, byte-order mark and the
      space separators) and LineTerminator (LF, CR, U+2028, U+2029). */
  predicate IsSpace(c: char)
  {
    || c == ' ' || c == '\t' || c == '\n' || c == '\r'
    || c == '\U{000B}' || c == '\U{000C}' || c == '\U{00A0}' || c == '\U{FEFF}'
    || c == '\U{1680}' || ('\U{2000}' <= c <= '\U{200A}')
    || c == '\U{2028}' || c == '\U{2029}' || c == '\U{202F}' || c == '\U{205F}'
    || c == '\U{3000}'
  }

  function TrimStart(s: string): (r: string)
    decreases |s|
  {
    if s != [] && IsSpace(s[0]) then TrimStart(s[1..]) else s
  }

  /** What `trimStart()` keeps is a suffix of its input. */
  lemma {:induction false} TrimStartSuffix(s: string)
    ensures |TrimStart(s)| <= |s| && TrimStart(s) == s[|s| - |TrimStart(s)|..]
    decreases |s|
  {
    if s != [] && IsSpace(s[0]) {
      TrimStartSuffix(s[1..]);
    }
  }

  function TrimEnd(s: string): (r: string)
    decreases |s|
  {
    if s != [] && IsSpace(s[|s| - 1]) then TrimEnd(s[..|s| - 1]) else s
  }

  function Trim(s: string): string
  {
    TrimEnd(TrimStart(s))
  }

  /** Every character of `s` is white space (vacuously so for ""). */
  predicate IsBlank(s: string)
  {
    forall i :: 0 <= i < |s| ==> IsSpace(s[i])
  }

  /** `trim()` yields the empty string exactly for blank strings. */
  lemma {:induction false} TrimEmptyIffBlank(s: string)
    ensures Trim(s) == "" <==> IsBlank(s)
  {
    TrimStartBlank(s);
    TrimEndKeepsNonBlank(TrimStart(s));
  }

  lemma {:induction false} TrimStartBlank(s: string)
    ensures TrimStart(s) == [] <==> IsBlank(s)
    ensures TrimStart(s) != [] ==> !IsSpace(TrimStart(s)[0])
    decreases |s|
  {
    if s != [] && IsSpace(s[0]) {
      TrimStartBlank(s[1..]);
      assert IsBlank(s) <==> IsBlank(s[1..]) by {
        assert forall i :: 0 <= i < |s[1..]| ==> s[1..][i] == s[i + 1];
      }
    }
  }

  lemma {:induction false} TrimEndKeepsNonBlank(s: string)
    requires s != [] ==> !IsSpace(s[0])
    ensures TrimEnd(s) == [] <==> s == []
    decreases |s|
  {
    if s != [] && IsSpace(s[|s| - 1]) {
      assert |s| > 1;
      TrimEndKeepsNonBlank(s[..|s| - 1]);
    }
  }

  /** `q` occurs in `s` starting at position `i`. */
  predicate OccursAt(s: string, q: string, i: int)
  {
    0 <= i && i + |q| <= |s| && s[i..i + |q|] == q
  }

  /** `s.includes(q)`; every string includes "". */
  predicate Contains(s: string, q: string)
  {
    exists i :: 0 <= i <= |s| - |q| && OccursAt(s, q, i)
  }

  /** Case-insensitive `includes`, as the search boxes compute it. */
  predicate ContainsIgnoringCase(s: string, q: string)
  {
    Contains(ToLower(s), ToLower(q))
  }

  lemma ContainsEmpty(s: string)
    ensures Contains(s, "")
  {
    assert OccursAt(s, "", 0);
  }

  /** JavaScript's default string order (`<` on strings, and `sort()` without a
      comparator): lexicographic on characters, a proper prefix first. */
  predicate StrLess(a: string, b: string)
    decreases |a|
  {
    if a == [] then b != []
    else if b == [] then false
    else if a[0] != b[0] then a[0] < b[0]
    else StrLess(a[1..], b[1..])
  }

  lemma {:induction false} StrLessIrreflexive(a: string)
    ensures !StrLess(a, a)
    decreases |a|
  {
    if a != [] { StrLessIrreflexive(a[1..]); }
  }

  lemma {:induction false} StrLessTransitive(a: string, b: string, c: string)
    requires StrLess(a, b) && StrLess(b, c)
    ensures StrLess(a, c)
    decreases |a|
  {
    if a != [] && b != [] && c != [] && a[0] == b[0] && b[0] == c[0] {
      StrLessTransitive(a[1..], b[1..], c[1..]);
    }
  }

  lemma {:induction false} StrLessTotal(a: string, b: string)
    requires a != b
    ensures StrLess(a, b) || StrLess(b, a)
    decreases |a|
  {
    if a != [] && b != [] && a[0] == b[0] {
      assert a == [a[0]] + a[1..] && b == [b[0]] + b[1..];
      StrLessTotal(a[1..], b[1..]);
    }
  }

  /** A common prefix does not affect the order. */
  lemma {:induction false} StrLessCommonPrefix(p: string, a: string, b: string)
    ensures StrLess(p + a, p + b) <==> StrLess(a, b)
    decreases |p|
  {
    if p == [] {
      assert p + a == a && p + b == b;
    } else {
      assert (p + a)[0] == p[0] == (p + b)[0];
      assert (p + a)[1..] == p[1..] + a && (p + b)[1..] == p[1..] + b;
      StrLessCommonPrefix(p[1..], a, b);
    }
  }

  lemma StrLessIsOrder()
    ensures StrictTotalOrder(StrLess)
  {
    forall a ensures !StrLess(a, a) { StrLessIrreflexive(a); }
    forall a, b, c | StrLess(a, b) && StrLess(b, c) ensures StrLess(a, c) {
      StrLessTransitive(a, b, c);
    }
    forall a, b | a != b ensures StrLess(a, b) || StrLess(b, a) { StrLessTotal(a, b); }
  }

  /** `s.split(sep)` for a one-character separator: the pieces between separators,
      so there is always at least one piece. */
  function Split(s: string, sep: char): (parts: seq<string>)
    ensures |parts| >= 1
    decreases |s|
  {
    if s == [] then [""]
    else
      var rest := Split(s[1..], sep);
      if s[0] == sep then [""] + rest
      else [[s[0]] + rest[0]] + rest[1..]
  }

  /** No piece holds the separator. */
  lemma {:induction false} SplitPiecesFree(s: string, sep: char)
    ensures forall i :: 0 <= i < |Split(s, sep)| ==> sep !in Split(s, sep)[i]
    decreases |s|
  {
    if s != [] {
      SplitPiecesFree(s[1..], sep);
      var rest := Split(s[1..], sep);
      if s[0] != sep {
        assert sep !in [s[0]] + rest[0];
      }
    }
  }

  /** A string free of the separator is a single piece. */
  lemma {:induction false} SplitNoSeparator(s: string, sep: char)
    requires sep !in s
    ensures Split(s, sep) == [s]
    decreases |s|
  {
    if s != [] {
      assert sep !in s[1..];
      SplitNoSeparator(s[1..], sep);
      assert [s[0]] + s[1..] == s;
    }
  }

  /** The piece before the first separator is split off first. */
  lemma {:induction false} SplitAtFirst(a: string, sep: char, b: string)
    requires sep !in a
    ensures Split(a + [sep] + b, sep) == [a] + Split(b, sep)
    decreases |a|
  {
    if a == [] {
      assert a + [sep] + b == [sep] + b;
      assert ([sep] + b)[1..] == b;
    } else {
      assert (a + [sep] + b)[1..] == a[1..] + [sep] + b;
      assert sep !in a[1..];
      SplitAtFirst(a[1..], sep, b);
      assert [a[0]] + a[1..] == a;
    }
  }

  /** Three separator-free pieces joined by the separator split back into them. */
  lemma SplitThree(a: string, b: string, c: string, sep: char)
    requires sep !in a && sep !in b && sep !in c
    ensures Split(a + [sep] + b + [sep] + c, sep) == [a, b, c]
  {
    assert a + [sep] + b + [sep] + c == a + [sep] + (b + [sep] + c);
    SplitAtFirst(a, sep, b + [sep] + c);
    SplitAtFirst(b, sep, c);
    SplitNoSeparator(c, sep);
  }

  /** `[...new Set(xs)].filter(Boolean).sort()`: the distinct non-empty strings
      of `xs`, in the default string order. */
  function SortedOptions(xs: seq<string>): (r: seq<string>)
    ensures StrictlySorted(r, StrLess)
    ensures forall y :: y in r <==> y in xs && y != ""
    ensures |r| <= |xs|
  {
    StrLessIsOrder();
    SortDistinct(Filter(xs, (y: string) => y != ""), StrLess)
  }
}

=== FILE: timetable.dfy ===
/** The teacher's weekly timetable: day codes normalised to full names, the
    institute's entries narrowed to the signed-in teacher, the day-by-period grid,
    the period rows of the desktop table and the per-day lists of the mobile view. */
module Timetable {
  import opened Wrappers
  import opened Seqs
  import opened Sorting

  /** The seven full day names, Monday first: the columns of the grid. */
  const Days: seq<string> := ["Monday", "Tuesday", "Wednesday", "Thursday", "Friday", "Saturday", "Sunday"]

  /** The short codes the backend may send, in the same order. */
  const DayCodes: seq<string> := ["Mon", "Tue", "Wed", "Thu", "Fri", "Sat", "Sun"]

  /** One timetable entry. A missing period is `None`. */
  datatype Entry = Entry(day: string, period: Option<int>, teacherId: string,
                         className: string, sectionName: string, subjectName: string)

  /** `DAY_MAP[day] || day`: a short code becomes its full name, anything else is kept. */
  function NormalizeDay(day: string): (r: string)
    ensures forall i :: 0 <= i < 7 && day == DayCodes[i] ==> r == Days[i]
    ensures day !in DayCodes ==> r == day
  {
    if day == "Mon" then "Monday"
    else if day == "Tue" then "Tuesday"
    else if day == "Wed" then "Wednesday"
    else if day == "Thu" then "Thursday"
    else if day == "Fri" then "Friday"
    else if day == "Sat" then "Saturday"
    else if day == "Sun" then "Sunday"
    else day
  }

  /** Every short code has three letters, so a value of any other length is kept. */
  lemma NormalizeKeepsOtherLengths(day: string)
    requires |day| != 3
    ensures NormalizeDay(day) == day
  {
  }

  /** No full day name is a short code, so normalising twice is normalising once. */
  lemma NormalizeDayIdempotent(day: string)
    ensures NormalizeDay(NormalizeDay(day)) == NormalizeDay(day)
  {
    var r := NormalizeDay(day);
    if r != day {
      assert |r| >= 6;
      NormalizeKeepsOtherLengths(r);
    }
  }

  /** A normalised day is a full day name exactly when it was a code or a full name. */
  lemma NormalizeDayIsDay(day: string)
    ensures NormalizeDay(day) in Days <==> day in Days || day in DayCodes
  {
    if day in DayCodes {
      var i :| 0 <= i < 7 && DayCodes[i] == day;
      assert NormalizeDay(day) == Days[i];
    }
  }

  function NormalizeEntry(e: Entry): Entry
  {
    e.(day := NormalizeDay(e.day))
  }

  /** The timetable kept after loading: the normalised entries of this teacher, in
      the order the backend sent them. */
  function TeacherEntries(entries: seq<Entry>, teacherId: string): (r: seq<Entry>)
    ensures IsSubseq(r, Map(entries, NormalizeEntry))
    ensures forall x :: x in r <==> x.teacherId == teacherId && exists e :: e in entries && x == NormalizeEntry(e)
    ensures forall x :: multiset(r)[x] == if x.teacherId == teacherId then multiset(Map(entries, NormalizeEntry))[x] else 0
  {
    Filter(Map(entries, NormalizeEntry), (e: Entry) => e.teacherId == teacherId)
  }

  /** The body of the timetable response. */
  datatype Response = Response(success: bool, data: seq<Entry>, error: string)

  /** What the page shows once loading ends. */
  datatype View = Ready(timetable: seq<Entry>) | Failed(message: string)

  const LoginMessage: string := "Please log in to view your timetable."
  const LoadFailedMessage: string := "Failed to load timetable"
  const RequestFailedMessage: string := "Failed to load timetable. Please try again."

  /** `fetchTimetable`. `response` is what the request would yield (`None` for a
      rejected request); without an institute id or a teacher id it is never made. */
  function LoadTimetable(instituteId: string, teacherId: string, response: Option<Response>): (v: View)
    ensures instituteId == "" || teacherId == "" ==> v == Failed(LoginMessage)
    ensures instituteId != "" && teacherId != "" ==>
              match response
              case None => v == Failed(RequestFailedMessage)
              case Some(res) =>
                if res.success then v.Ready? && v.timetable == TeacherEntries(res.data, teacherId)
                else if res.error != "" then v == Failed(res.error)
                else v == Failed(LoadFailedMessage)
  {
    if instituteId == "" || teacherId == "" then Failed(LoginMessage)
    else
      match response
      case None => Failed(RequestFailedMessage)
      case Some(res) =>
        if res.success then Ready(TeacherEntries(res.data, teacherId))
        else Failed(if res.error != "" then res.error else LoadFailedMessage)
  }

  /** Without a signed-in identity the outcome does not depend on the backend. */
  lemma MissingIdentityIgnoresResponse(instituteId: string, teacherId: string, a: Option<Response>, b: Option<Response>)
    requires instituteId == "" || teacherId == ""
    ensures LoadTimetable(instituteId, teacherId, a) == LoadTimetable(instituteId, teacherId, b)
  {
  }

  /* ---------------------------------------------------------------- */
  /*  The day-by-period grid                                          */
  /* ---------------------------------------------------------------- */

  /** An entry `groupByDay` places: it has a day and a non-zero period. */
  predicate Placed(e: Entry)
  {
    e.day != "" && e.period.Some? && e.period.value != 0
  }

  /** Every placed entry names one of the seven days (otherwise the grid has no row
      for it and placing it fails). */
  predicate DaysKnown(ts: seq<Entry>)
  {
    forall i :: 0 <= i < |ts| && Placed(ts[i]) ==> ts[i].day in Days
  }

  /** The last placed entry for `day` and `period`, scanning the whole timetable. */
  function LastEntryAt(ts: seq<Entry>, day: string, period: int): (r: Option<Entry>)
    ensures r.Some? ==> r.value in ts && Placed(r.value) && r.value.day == day && r.value.period == Some(period)
    ensures r.None? <==> forall i :: 0 <= i < |ts| ==> !(Placed(ts[i]) && ts[i].day == day && ts[i].period == Some(period))
    decreases |ts|
  {
    if ts == [] then None
    else
      var e := ts[|ts| - 1];
      if Placed(e) && e.day == day && e.period == Some(period) then Some(e)
      else LastEntryAt(ts[..|ts| - 1], day, period)
  }

  /** The grid with every day present and no entry. */
  function EmptyGrid(): (g: map<string, map<int, Entry>>)
    ensures g.Keys == set d | d in Days
    ensures forall d :: d in g ==> g[d] == map[]
  {
    map d | d in Days :: map[]
  }

  /** `groupByDay`: a row for each of the seven days; each placed entry is stored
      under its day and period, a later entry replacing an earlier one. */
  function GroupByDay(ts: seq<Entry>): (g: map<string, map<int, Entry>>)
    requires DaysKnown(ts)
    ensures g.Keys == set d | d in Days
    ensures forall d, p :: d in g ==> (p in g[d] <==> LastEntryAt(ts, d, p).Some?)
    ensures forall d, p :: d in g && p in g[d] ==> g[d][p] == LastEntryAt(ts, d, p).value
    decreases |ts|
  {
    if ts == [] then EmptyGrid()
    else
      var g := GroupByDay(ts[..|ts| - 1]);
      var e := ts[|ts| - 1];
      if Placed(e) then g[e.day := g[e.day][e.period.value := e]] else g
  }

  /** Each grid cell holds the last entry for its day and period: no later entry of
      the timetable is placed in the same cell. */
  lemma {:induction false} LastEntryIsLast(ts: seq<Entry>, day: string, period: int, i: nat)
    requires i < |ts| && LastEntryAt(ts, day, period) == Some(ts[i])
    requires forall j :: i < j < |ts| ==> ts[j] != ts[i]
    ensures forall j :: i < j < |ts| ==> !(Placed(ts[j]) && ts[j].day == day && ts[j].period == Some(period))
    decreases |ts|
  {
    if i < |ts| - 1 {
      var e := ts[|ts| - 1];
      assert !(Placed(e) && e.day == day && e.period == Some(period));
      var init := ts[..|ts| - 1];
      assert init[i] == ts[i];
      LastEntryIsLast(init, day, period, i);
      forall j | i < j < |ts| - 1 ensures ts[j] == init[j] { }
    }
  }

  /* ---------------------------------------------------------------- */
  /*  Periods                                                         */
  /* ---------------------------------------------------------------- */

  function IntLess(): (int, int) -> bool
  {
    (a: int, b: int) => a < b
  }

  lemma IntLessIsOrder()
    ensures StrictTotalOrder(IntLess())
  {
  }

  /** `xs` without duplicates, in ascending numeric order (`sort((a, b) => a - b)`). */
  function SortedInts(xs: seq<int>): (r: seq<int>)
    ensures forall i, j :: 0 <= i < j < |r| ==> r[i] < r[j]
    ensures forall y :: y in r <==> y in xs
  {
    IntLessIsOrder();
    var r := SortDistinct(xs, IntLess());
    assert forall i, j :: 0 <= i < j < |r| ==> r[i] < r[j] by {
      forall i, j | 0 <= i < j < |r| ensures r[i] < r[j] {
        assert IntLess()(r[i], r[j]);
      }
    }
    r
  }

  function DefinedPeriods(ts: seq<Entry>): (r: seq<int>)
    ensures forall p :: p in r <==> exists e :: e in ts && e.period == Some(p)
  {
    var defined := Filter(ts, (e: Entry) => e.period.Some?);
    var r := Map(defined, (e: Entry) => e.period.GetOr(0));
    assert forall p :: (exists e :: e in ts && e.period == Some(p)) ==> p in r by {
      forall p | exists e :: e in ts && e.period == Some(p) ensures p in r {
        var e :| e in ts && e.period == Some(p);
        assert e in defined;
      }
    }
    r
  }

  /** Ascending periods as table rows, followed by the `undefined` row when some
      entry has no period. */
  function PeriodRows(sorted: seq<int>, missing: bool): (r: seq<Option<int>>)
    requires forall i, j :: 0 <= i < j < |sorted| ==> sorted[i] < sorted[j]
    ensures forall x :: x in r <==> (x.Some? && x.value in sorted) || (x.None? && missing)
    ensures forall i, j :: 0 <= i < j < |r| ==> r[i].Some? && (r[j].Some? ==> r[i].value < r[j].value)
  {
    var defined := seq(|sorted|, i requires 0 <= i < |sorted| => Some(sorted[i]));
    assert forall x :: x in defined <==> x.Some? && x.value in sorted by {
      forall x: Option<int> | x.Some? && x.value in sorted ensures x in defined {
        var i :| 0 <= i < |sorted| && sorted[i] == x.value;
        assert defined[i] == x;
      }
    }
    defined + (if missing then [None] else [])
  }

  /** `allPeriods`: the distinct periods of the timetable in ascending order; an
      entry without a period contributes `undefined`, which the sort puts last. */
  function AllPeriods(ts: seq<Entry>): (r: seq<Option<int>>)
    ensures forall x :: x in r <==> exists e :: e in ts && e.period == x
    ensures forall i, j :: 0 <= i < j < |r| ==> r[i].Some? && (r[j].Some? ==> r[i].value < r[j].value)
  {
    var sorted := SortedInts(DefinedPeriods(ts));
    var r := PeriodRows(sorted, SomePeriodMissing(ts));
    forall x ensures x in r <==> exists e :: e in ts && e.period == x {
      PeriodRowMember(ts, sorted, r, x);
    }
    r
  }

  /** Some entry has no period. */
  predicate SomePeriodMissing(ts: seq<Entry>)
  {
    exists e :: e in ts && e.period.None?
  }

  /** One row value is in the period rows exactly when some entry has that period. */
  lemma PeriodRowMember(ts: seq<Entry>, sorted: seq<int>, r: seq<Option<int>>, x: Option<int>)
    requires forall p :: p in sorted <==> exists e :: e in ts && e.period == Some(p)
    requires forall y :: y in r <==> (y.Some? && y.value in sorted) || (y.None? && SomePeriodMissing(ts))
    ensures x in r <==> exists e :: e in ts && e.period == x
  {
    if x.Some? {
      var p := x.value;
      assert x == Some(p);
      assert x in r <==> p in sorted;
    } else {
      assert x in r <==> SomePeriodMissing(ts);
    }
  }

  /** The placed entries of one day. */
  function DayEntries(ts: seq<Entry>, day: string): (r: seq<Entry>)
    ensures IsSubseq(r, ts)
    ensures forall e :: e in r <==> e in ts && Placed(e) && e.day == day
    ensures forall e :: multiset(r)[e] == if Placed(e) && e.day == day then multiset(ts)[e] else 0
  {
    Filter(ts, (e: Entry) => Placed(e) && e.day == day)
  }

  /** The periods of a day's placed entries are the keys of that day's grid row. */
  lemma DayPeriodsAreGridKeys(ts: seq<Entry>, day: string)
    requires DaysKnown(ts) && day in Days
    ensures forall p :: p in DefinedPeriods(DayEntries(ts, day)) <==> p in GroupByDay(ts)[day]
  {
    var g := GroupByDay(ts);
    var here := DayEntries(ts, day);
    assert day in g;
    forall p ensures p in DefinedPeriods(here) <==> p in g[day] {
      if p in g[day] {
        var e := LastEntryAt(ts, day, p).value;
        assert e in here;
      }
      if p in DefinedPeriods(here) {
        var e :| e in here && e.period == Some(p);
        var i :| 0 <= i < |ts| && ts[i] == e;
        assert Placed(ts[i]) && ts[i].day == day && ts[i].period == Some(p);
      }
    }
  }

  /** The cells of a grid row listed in the order of `keys`, which holds each of the
      row's periods once, ascending. */
  function RowList(row: map<int, Entry>, keys: seq<int>): (r: seq<(int, Entry)>)
    requires forall i, j :: 0 <= i < j < |keys| ==> keys[i] < keys[j]
    requires forall p :: p in keys <==> p in row
    ensures forall i, j :: 0 <= i < j < |r| ==> r[i].0 < r[j].0
    ensures forall p :: (exists i :: 0 <= i < |r| && r[i].0 == p) <==> p in row
    ensures forall i :: 0 <= i < |r| ==> r[i].0 in row && r[i].1 == row[r[i].0]
  {
    assert forall i :: 0 <= i < |keys| ==> keys[i] in row by {
      forall i | 0 <= i < |keys| ensures keys[i] in row { assert keys[i] in keys; }
    }
    var r := seq(|keys|, i requires 0 <= i < |keys| => (keys[i], row[keys[i]]));
    assert forall p :: p in row ==> exists i :: 0 <= i < |r| && r[i].0 == p by {
      forall p | p in row ensures exists i :: 0 <= i < |r| && r[i].0 == p {
        var i :| 0 <= i < |keys| && keys[i] == p;
        assert r[i].0 == p;
      }
    }
    r
  }

  /** The mobile card of one day: the day's grid cells as (period, entry) pairs,
      ordered by period. */
  function DayList(ts: seq<Entry>, day: string): (r: seq<(int, Entry)>)
    requires DaysKnown(ts) && day in Days
    ensures forall i, j :: 0 <= i < j < |r| ==> r[i].0 < r[j].0
    ensures forall p :: (exists i :: 0 <= i < |r| && r[i].0 == p) <==> p in GroupByDay(ts)[day]
    ensures forall i :: 0 <= i < |r| ==> r[i].1 == GroupByDay(ts)[day][r[i].0]
  {
    DayPeriodsAreGridKeys(ts, day);
    var keys := SortedInts(DefinedPeriods(DayEntries(ts, day)));
    RowList(GroupByDay(ts)[day], keys)
  }
}

=== FILE: wrappers.dfy ===
/** Failure-carrying wrappers used across the model: an absent value (`Option`)
    and an operation that either succeeds or reports why it did not (`Result`). */
module Wrappers {

  datatype Option<+T> = None | Some(value: T) {

    /** The wrapped value, or `default` when absent (JavaScript's `??`). */
    function GetOr(default: T): T {
      match this
      case Some(v) => v
      case None => default
    }
  }

  datatype Result<+R, +E> = Ok(value: R) | Err(error: E)
}
